=== FILE: README.md ===
# Two-tier cache coherence (redis-caffeine-spring-boot-starter), in Dafny

This project models the coherence protocol of a Spring cache that keeps two
tiers:

- a per-node local tier (a Caffeine map keyed by the cache key);
- a shared remote tier (Redis string keys of the form `name:key` or
  `name:prefix:key`, each carrying a TTL tag).

Nodes keep their local tiers in step through a pub/sub topic. Every write
first changes the remote tier, then publishes an invalidation message
`(cacheName, key?)`, then changes the node's own local tier. Every node's
listener, the sender's included (it subscribes to the same topic), drops
the named entry, or the whole local tier of that cache when the message has
no key.

Modules, following the program's classes:

- `Wrappers`: `Option` and `Result`.
- `Config`: the `spring.cache.redis-caffeine.*` record
  (`CacheRedisCaffeineProperties`), its `Redis` and `Caffeine` sub-records,
  and their defaults.
- `Text`: Spring's `isEmpty` and `hasText`, and `*`-glob matching as Redis
  `KEYS` does it.
- `Tiers`: the world one instance sees, made of its local map, the shared
  store and the bus log.
  - An operation is a plan of effects run in program order.
  - An unreachable store or bus makes the next call to it throw, and the
    throw abandons the rest of the plan.
  - The run records its trace, so write ordering can be stated and proved.
- `Cache`: one `RedisCaffeineCache` instance. Covers `lookup`,
  `get(key, loader)`, `put`, `putIfAbsent`, `evict`, `clear`,
  `clearLocal`, `clearRedis`, the remote-key rendering and TTL resolution.
- `Registry`: one node's `RedisCaffeineCacheManager`. Covers `getCache`,
  the local-tier options of `caffeineCache`, `clearLocal`, `clearRedis` and
  `clearCaffeine`.
- `Listener`: `CaffineChangeMessageListener.onMessage`.
- `Cluster`: several nodes sharing one store and one bus. Delivery of a
  message to a node is its own step. This module holds the cross-node
  coherence lemmas.

Keys are rendered to strings by an abstract `toStr` function, which stands
for the key's `toString()`. A cached Java `null` is stored as
`NullSentinel`.

Remote keys of two caches can collide when a cache name contains `:`.
`Cache.NamespaceOverlap` shows that cache `a` with key `b:x` and cache `a:b`
with key `x` share a remote key. `Cache.NamespacesDisjoint` proves that
names without `:` never share one. For the same reason, `clear()` on cache
`a` also deletes every remote key of cache `a:b`, because `a:b:x` matches
`a:*`, but it publishes only `(a, none)`, so peers keep local `a:b` entries
that are gone remotely. `Cache.ClearSparesOtherNamespaces` proves that
`clear` keeps another cache's remote entries when neither name contains `:`
and the cleared one contains no `*`.

## Model

| member | source | states |
|---|---|---|
| Config.DefaultProps | src/main/java/lc/cy/cache/config/CacheRedisCaffeineProperties.java:13-40 | (no contract) the record before binding: `enable` false, no cache names, nulls allowed, dynamic creation, and no prefix, `redis` or `caffeine` sub-record; what this implies for creation is `Registry.DefaultPropsCreate` |
| Config.DefaultRedis | src/main/java/lc/cy/cache/config/CacheRedisCaffeineProperties.java:103-113 | (no contract) a fresh `Redis` sub-record: default expiry 60000 ms, no per-name overrides, topic `cache:caffeine:change:topic` |
| Config.DefaultCaffeine | src/main/java/lc/cy/cache/config/CacheRedisCaffeineProperties.java:146-166 | (no contract) a fresh `Caffeine` sub-record: access and write expiry 60000, refresh -1, initial capacity 1000, maximum size 1000000; its effect on the builder is `Registry.DefaultLocalOptions` |
| Config.ResolveTtl | src/main/java/lc/cy/cache/caffine/RedisCaffeineCache.java:54-58 | (no contract) the remote TTL of a name: its override when the `expires` map has one, else `defaultExpires`; its properties are `Config.TtlOverrideIsPerName` and `Cache.TtlPrecedence` |
| Config.TtlOverrideIsPerName | src/main/java/lc/cy/cache/caffine/RedisCaffeineCache.java:54-58 | setting an override for one name fixes that name's TTL to it and leaves every other name's TTL unchanged |
| Text.HasText | src/main/java/lc/cy/cache/caffine/RedisCaffeineCache.java:231 | (no contract) `Assert.hasText`: some character is not whitespace in the sense of `Character.isWhitespace` |
| Cache.NewCache | src/main/java/lc/cy/cache/caffine/RedisCaffeineCache.java:46-60 | (no contract) the constructor: name, `cachePrefix`, the resolved TTL, `allowNull` and the topic; it needs the `redis` sub-record, which `Registry.Create` checks first |
| Cache.RedisKey | src/main/java/lc/cy/cache/caffine/RedisCaffeineCache.java:169-174 | every remote key of the instance starts with `name:` |
| Cache.RedisKeyInjective | src/main/java/lc/cy/cache/caffine/RedisCaffeineCache.java:169-174 | two keys share a remote key exactly when their `toString()` renderings are equal |
| Cache.NamespacesDisjoint | src/main/java/lc/cy/cache/caffine/RedisCaffeineCache.java:173 | caches with different names that contain no `:` never write the same remote key |
| Cache.NamespaceOverlap | src/main/java/lc/cy/cache/caffine/RedisCaffeineCache.java:173 | when a name contains `:`, cache `a` with key `b:x` and cache `a:b` with key `x` share a remote key |
| Cache.TtlPrecedence | src/main/java/lc/cy/cache/caffine/RedisCaffeineCache.java:54-58 | a written entry's expiry is the per-name override when one is configured, else the global default, and is absent when that value is not positive |
| Cache.Put | src/main/java/lc/cy/cache/caffine/RedisCaffeineCache.java:97-112 | a null with nulls disallowed is exactly `evict`. Otherwise it sets the remote key, then publishes `(name, k)`, then sets the local entry. A down store changes nothing. A down bus leaves only the remote write. The trace is remote, then publish, then local. |
| Cache.Evict | src/main/java/lc/cy/cache/caffine/RedisCaffeineCache.java:141-149 | deletes the remote key, then publishes `(name, k)`, then drops the local entry, with the same failure behaviour as `put` |
| Cache.Lookup | src/main/java/lc/cy/cache/caffine/RedisCaffeineCache.java:151-167 | a local hit makes no remote call. On a local miss, a remote hit is copied into the local tier and returned, and a miss in both returns none and changes nothing. The remote tier and the bus never change. |
| Cache.GetAsWritten | src/main/java/lc/cy/cache/caffine/RedisCaffeineCache.java:72-95 | `get(key, loader)` as written. A hit in either tier returns the stored object and never calls the loader. A failing first lookup escapes unwrapped. On a miss the loader is called, and a throwing loader, or a null loader result with nulls disallowed, changes nothing and yields ValueRetrieval. The trace stays ordered. |
| Cache.GetAsWrittenLeaksSentinel | src/main/java/lc/cy/cache/caffine/RedisCaffeineCache.java:74-76 | as written, a hit on a cached null returns the sentinel object itself; the corrected `Get` returns null |
| Cache.Get | src/main/java/lc/cy/cache/caffine/RedisCaffeineCache.java:72-95 | `get(key, loader)` corrected: it has the same effects and trace as the written version. A hit in either tier returns the stored value unwrapped (null for a cached null) without calling the loader. A store outage on the first lookup reaches the caller as StoreUnavailable with nothing changed. On a miss the loader is called: a throwing loader, or a null result with nulls disallowed, changes nothing and yields ValueRetrieval; otherwise the loaded value is returned when the bus is up, and ValueRetrieval is returned when `put`'s publish fails. |
| Cache.GetCallsLoaderOnlyOnMiss | src/main/java/lc/cy/cache/caffine/RedisCaffeineCache.java:74-86 | the loader runs if and only if the key is in neither tier and the remote read succeeded |
| Cache.LoaderFailureChangesNothing | src/main/java/lc/cy/cache/caffine/RedisCaffeineCache.java:86-91 | when a loader that throws is called, both tiers and the message log stay as they were, and the error is ValueRetrieval |
| Cache.GetMissWritesThrough | src/main/java/lc/cy/cache/caffine/RedisCaffeineCache.java:86-89 | on a miss, the loaded value goes through `put` and is returned; a failing `put` comes back as ValueRetrieval |
| Cache.NullLoadedOnce | src/main/java/lc/cy/cache/caffine/RedisCaffeineCache.java:74-89 | with nulls allowed, a loader returning null leaves the sentinel cached, so the next `get` returns null without calling its loader |
| Cache.PutThenLookup | src/main/java/lc/cy/cache/caffine/RedisCaffeineCache.java:111 | after a successful `put`, `lookup` answers from the local tier with the stored value and makes no remote call. In the program this holds until the node's own listener receives the message it published, which drops the entry again (`Cluster.Deliver` models that delivery). |
| Cache.PutThenGet | src/main/java/lc/cy/cache/caffine/RedisCaffeineCache.java:72-112 | after a successful `put(k, v)`, `get(k, loader)` returns v and never calls the loader |
| Cache.EvictThenLookupMisses | src/main/java/lc/cy/cache/caffine/RedisCaffeineCache.java:141-167 | after a successful `evict`, `lookup` misses in both tiers |
| Cache.PutNullIsEvict | src/main/java/lc/cy/cache/caffine/RedisCaffeineCache.java:99-101 | with nulls disallowed, `put(k, null)` is `evict(k)` in every effect and result |
| Cache.PutIfAbsent | src/main/java/lc/cy/cache/caffine/RedisCaffeineCache.java:114-139 | only the remote tier is consulted. A present key changes nothing, publishes nothing and returns the previous value. An absent key gets the same write-through as `put` and returns none. |
| Cache.PutIfAbsentIgnoresLocal | src/main/java/lc/cy/cache/caffine/RedisCaffeineCache.java:122-123 | the result of `putIfAbsent` does not depend on the local tier |
| Cache.Clear | src/main/java/lc/cy/cache/caffine/RedisCaffeineCache.java:189-201 | deletes the remote keys matching `name:*`, then publishes `(name, none)`, then empties the local tier, failing like `put` |
| Cache.NamespaceCoversKeys | src/main/java/lc/cy/cache/caffine/RedisCaffeineCache.java:192 | every remote key the instance writes matches the pattern `clear` deletes |
| Cache.ClearEmptiesNamespace | src/main/java/lc/cy/cache/caffine/RedisCaffeineCache.java:189-201 | after a successful `clear`, no remote key of the instance remains, the local tier is empty and exactly one key-less message was published |
| Cache.ClearLocal | src/main/java/lc/cy/cache/caffine/RedisCaffeineCache.java:208-223 | a null key empties the local tier; any other key removes that entry only; surviving entries keep their values |
| Cache.ClearSparesOtherNamespaces | src/main/java/lc/cy/cache/caffine/RedisCaffeineCache.java:189-201 | when neither name contains `:` and the cleared name contains no `*`, `clear()` on one cache keeps every remote entry of another cache, unchanged |
| Cache.ClearRedis | src/main/java/lc/cy/cache/caffine/RedisCaffeineCache.java:229-240 | a prefix with no text is rejected with no change. Otherwise exactly the remote keys matching `name:prefix*` are deleted, with `*` appended only if it is missing, and only the remote tier is touched. |
| Cache.ClearRedisDeletesPrefix | src/main/java/lc/cy/cache/caffine/RedisCaffeineCache.java:233-238 | for a name and prefix without `*`, `clearRedis` deletes exactly the keys that start with `name:prefix` |
| Tiers.RunExecutesPrefix | src/main/java/lc/cy/cache/caffine/RedisCaffeineCache.java:103-111 | running a plan performs exactly a prefix of its statements. It succeeds if and only if the whole plan ran; otherwise the first statement it skipped is the one that threw. |
| Tiers.FailureNeverReachesLocal | src/main/java/lc/cy/cache/caffine/RedisCaffeineCache.java:142-148 | in a plan ordered remote, then publish, then local, any failure leaves the local tier unchanged, and a failing remote call also publishes nothing |
| Registry.BuilderOptions | src/main/java/lc/cy/cache/caffine/RedisCaffeineCacheManager.java:75-91 | each Caffeine builder option is set exactly when its configured value is positive, and then to that value |
| Registry.DefaultLocalOptions | src/main/java/lc/cy/cache/caffine/RedisCaffeineCacheManager.java:69-74 | a name with no local-tier settings gets the defaults: access and write expiry 60000, capacity 1000, size 1000000, and no refresh |
| Registry.DefaultPropsCreate | src/main/java/lc/cy/cache/config/CacheRedisCaffeineProperties.java:13-113 | an untouched record admits any name but cannot create a cache, because `redis` and `caffeine` are null. With both sub-records at their defaults, a new cache has a 60000 ms TTL, allows nulls, has no prefix and uses the default topic. |
| Registry.GetCacheAsWrittenRefusesEveryName | src/main/java/lc/cy/cache/caffine/RedisCaffeineCacheManager.java:52-54 | as written, `getCache` returns null for every non-empty name and leaves the registry unchanged |
| Registry.GetCacheAsWrittenOnlyRegistersEmptyName | src/main/java/lc/cy/cache/caffine/RedisCaffeineCacheManager.java:51-67 | as written, the only name that can ever be registered is the empty one |
| Registry.GetCache | src/main/java/lc/cy/cache/caffine/RedisCaffeineCacheManager.java:51-67 | with the guard corrected: an empty name is refused and a registered name gets its instance back. A name outside the configured set is refused unless creation is dynamic. Otherwise a new instance is created and registered. Creation fails with NullPointer when the `caffeine` map is missing, with IllegalState when the name's refresh-after-write is set, and with NullPointer when `redis` is missing, in that order. Existing instances never change. |
| Registry.GetCacheAsWritten | src/main/java/lc/cy/cache/caffine/RedisCaffeineCacheManager.java:51-67 | (no contract) `getCache` with its inverted guard; its behaviour is stated by `Registry.GetCacheAsWrittenRefusesEveryName` and `Registry.GetCacheAsWrittenOnlyRegistersEmptyName` |
| Registry.Create | src/main/java/lc/cy/cache/caffine/RedisCaffeineCacheManager.java:63 | creation succeeds if and only if both sub-records are present and the name's local settings do not ask for refresh-after-write. A missing `caffeine` map throws NullPointer before anything else. With both sub-records present, the only failure is IllegalState. A new instance has the requested name and an empty local tier. |
| Registry.LocalOptionsFor | src/main/java/lc/cy/cache/caffine/RedisCaffeineCacheManager.java:69-74 | (no contract) the name's own `Caffeine` settings, or a fresh default record when it has none, passed through `Registry.BuilderOptions` |
| Registry.RefreshAfterWriteBlocksCreation | src/main/java/lc/cy/cache/caffine/RedisCaffeineCacheManager.java:88-91 | a name whose settings ask for refresh-after-write is never registered and gets no instance, because Caffeine's `build()` without a loader throws |
| Registry.GetCacheIsStable | src/main/java/lc/cy/cache/caffine/RedisCaffeineCacheManager.java:55-66 | asking again for a name yields the same instance and changes nothing: one instance per name |
| Registry.Register | src/main/java/lc/cy/cache/caffine/RedisCaffeineCacheManager.java:64-66 | the first instance registered under a name stays, and it is the one returned |
| Registry.ClearLocal | src/main/java/lc/cy/cache/caffine/RedisCaffeineCacheManager.java:99-110 | an empty or unregistered name changes nothing. Otherwise only that instance's local tier changes, as `clearLocal(key)` describes. |
| Registry.ClearCaffeine | src/main/java/lc/cy/cache/caffine/RedisCaffeineCacheManager.java:146-154 | an unregistered name changes nothing; otherwise that instance's local tier becomes empty and every other instance is unchanged |
| Registry.ClearRedis | src/main/java/lc/cy/cache/caffine/RedisCaffeineCacheManager.java:112-144 | a prefix with no text is rejected. Otherwise exactly the remote keys matching `name:prefix*` are deleted. |
| Registry.ClearRedisIgnoresDeployment | src/main/java/lc/cy/cache/caffine/RedisCaffeineCacheManager.java:117-143 | the cluster path and the fallback path purge the same keys. This holds by construction: the model treats both paths as one `KEYS` then `DEL` on the pattern, so the lemma only records that the choice of path is invisible in the model's result. In the program the two paths differ in key serialization (see "## Left out"). |
| Registry.ManagerAndInstancePurgeAlike | src/main/java/lc/cy/cache/caffine/RedisCaffeineCacheManager.java:116 | the manager's unconditional `*` and the instance's conditional one purge the same keys |
| Listener.OnMessage | src/main/java/lc/cy/cache/CaffineChangeMessageListener.java:27-35 | an undecodable payload throws and changes nothing. A decoded message only removes entries, and only from the local tier of the cache it names: all of that tier when there is no key, only that key otherwise. A cache this node never created is not created. |
| Cluster.Deliver | src/main/java/lc/cy/cache/CaffineChangeMessageListener.java:27-35 | hands bus entry e to node j as its encoded payload. The shared store, the bus log and every other node stay unchanged. |
| Cluster.DeliverAll | src/main/java/lc/cy/cache/CaffineChangeMessageListener.java:34 | delivering every bus entry from some point on, in order, publishes nothing and writes nothing remotely, so invalidations never loop |
| Cluster.SharedConfigAgrees | src/main/java/lc/cy/cache/caffine/RedisCaffeineCache.java:46-60 | nodes built from the same properties configure a shared cache name identically |
| Cluster.PutThenDeliverIsCoherent | src/main/java/lc/cy/cache/caffine/RedisCaffeineCache.java:103-111 | after node A's successful `put(k, v)`, the bus log gains exactly the entry `(name, k)`. Once that entry reaches node B through a codec that reads the message back unchanged, B holds no local entry for k and B's next lookup returns v. |
| Cluster.PeerStaleUntilDelivered | src/main/java/lc/cy/cache/caffine/RedisCaffeineCache.java:152-158 | until delivery, a peer that held k keeps answering with its old local value |
| Cluster.LossyDeliveryLeavesPeerStale | src/main/java/lc/cy/cache/CaffineChangeMessageListener.java:31-34 | if the key read back from A's published message differs from the key A wrote, delivering it to B leaves B answering that key with its old local value |
| Cluster.LongKeyLeavesPeerStale | src/main/java/lc/cy/cache/CaffineChangeMessageListener.java:31 | as written, for a `Long` key n in the 32-bit range that B holds: A's put publishes the JSON number n, a mapper that reads it back as the `Integer` n invalidates the wrong entry, and B keeps its old value after delivery |
| Wire.JsonEncode | src/main/java/lc/cy/cache/caffine/RedisCaffeineCache.java:109 | (no contract) `toJson(new CacheMessage(name, key))`: properties in alphabetical order, a null key left out, and no type information |
| Wire.JsonEncodeErasesKeyType | src/main/java/lc/cy/util/JsonUtil.java:29-57 | for every n in the 32-bit range, the `Long` key n and the `Integer` key n produce the same text, so no decoder reads both back as they were sent |
| Cluster.EvictThenDeliverMisses | src/main/java/lc/cy/cache/caffine/RedisCaffeineCache.java:141-149 | after node A's successful `evict(k)`, the bus gains `(name, k)`. Once that entry reaches node B through a round-tripping codec, B misses k in both tiers. |
| Cluster.ClearThenDeliverEmptiesPeer | src/main/java/lc/cy/cache/caffine/RedisCaffeineCache.java:189-201 | after node A's successful `clear()`, the bus gains `(name, none)`. Once that entry reaches node B, B's local tier of that cache is empty and every key misses. |
| Text.TrailingStarIsPrefix | src/main/java/lc/cy/cache/caffine/RedisCaffeineCache.java:233 | for a pattern with no other wildcard, a trailing `*` matches exactly the strings with that prefix |
| Text.DoubleStarIsStar | src/main/java/lc/cy/cache/caffine/RedisCaffeineCacheManager.java:116 | `p**` and `p*` match the same strings |

## Left out

- Message encoding and decoding. `Wire.JsonEncode` writes messages whose keys are `String`, `Integer` or `Long`. String escaping and other key types are not modelled; a composite `SimpleKey`, for example, would come back as a map. The receiving side (the serializer plus `fromJson`) is a parameter `decode`. The Java class `CacheMessage` is not among the source files of this model; its key is taken to be an untyped `Object`, as the constructor call at RedisCaffeineCache.java line 109 suggests.
- Spring wiring in `CacheRedisCaffeineAutoConfig` and the listener-container setup. This is plumbing with no protocol logic.
- `RedisCaffeineTemplate` is a thin delegate and is not part of this model. Its constructor assigns the field to itself (line 15), so the field stays null.
- Locks and concurrency. The `ReentrantLock`s in `get` and `putIfAbsent` are created fresh on every call, so they exclude nothing. Every operation is modelled as one atomic sequential step, and the model makes no concurrency claim.
- Caffeine's size and recency eviction and its time expiry, and Redis TTL countdown. There is no clock. The TTL is a tag on remote entries.
- Redis `KEYS` glob features other than `*` (`?`, `[...]`, `\` escapes). The patterns are built from the cache name and the caller's prefix copied in unchanged, and `Text.Glob` treats `?`, `[` and `\` as ordinary characters, whereas Redis gives them meaning.
- Cache.Clear, Cache.ClearRedis, Registry.ClearRedis, Cache.NamespaceCoversKeys, Cache.ClearRedisDeletesPrefix: these describe the program only for cache names and prefixes that contain none of `?`, `[` and `\`. In Redis, `clear()` on a cache named `a?` also deletes the keys of cache `ab`, and a name containing `[` can leave the cache's own keys undeleted.
- Cache.Clear, Cache.ClearEmptiesNamespace, Cache.ClearRedis, Cache.ClearRedisDeletesPrefix, Registry.ClearRedis, Registry.ClearRedisIgnoresDeployment: the remote tier is modelled as keyed by plain strings, which assumes the injected `RedisTemplate<Object, Object>` writes keys with a `String` key serializer. CacheRedisCaffeineAutoConfig.java lines 26-33 set none, and under a serializing default `KEYS name:*` would not match the stored keys. The manager's cluster path also runs `KEYS` on the raw bytes of the pattern (RedisCaffeineCacheManager.java line 121), bypassing the serializer that its `delete` (line 131) and the fallback path (lines 139-142) go through. The model treats both paths as the same string-keyed `KEYS` then `DEL`.
- Cluster versus standalone connection handling in the manager's `clearRedis`. It is modelled as trying the cluster path and then the fallback. The null `keys` set on the fallback path is not modelled.
- Spring's `AbstractValueAdaptingCache` internals. Null wrapping is the `NullSentinel` constructor, and `toValueWrapper` is an `Option`.
- Logging.
- Java null names, null prefixes and null maps. Strings and maps are always present; only the `redis` and `caffeine` sub-records, the cache prefix and the key of a message are optional.
- Registry.ClearCaffeine: the source calls `clearAllLocal()`, which `RedisCaffeineCache` does not declare, so that line does not compile. The model uses the declared no-argument `clearLocal()`. No as-written version exists to model.
- Cache.GetAsWritten: the cause chaining of `ValueRetrievalException` (`e.getCause()`) is collapsed into one error value.
- Cache.Get, Cache.GetAsWritten: the loader is passed as its outcome (returns a value or throws). A `Load` effect in the trace marks that it was called. What the loader itself computes is outside the model.
- Failures are modelled as a store or bus that is down for a whole operation. A command that fails once and then recovers is not modelled.
- Cluster.PutThenDeliverIsCoherent: holds only under the hypothesis `RoundTrips`, meaning the receiver reads back exactly the message sent. That is true for `String` keys. It is false for `Long` keys and for composite keys (see Findings and `Cluster.LongKeyLeavesPeerStale`). The lemma also assumes no other write to k happens between the put and B's lookup; interleavings with other writers are not modelled.
- Cluster.EvictThenDeliverMisses: the same `RoundTrips` hypothesis, with the same limits on key types.
- Cluster.ClearThenDeliverEmptiesPeer: the `RoundTrips` hypothesis for a key-less message. Only the cache name travels, so the key type plays no part.
- Cluster.Deliver: the listener's topic subscription is not modelled. Any bus entry can be handed to any node.

## Findings

| source | as written | input that shows it | evidently intended | confidence | as-written member | corrected member |
|---|---|---|---|---|---|---|
| src/main/java/lc/cy/cache/caffine/RedisCaffeineCacheManager.java:52-54 | `if (!StringUtils.isEmpty(name)) return null;` refuses every non-empty name | `getCache("users")` returns null and registers nothing | refuse only an empty name | high (not executed) | Registry.GetCacheAsWrittenRefusesEveryName | Registry.GetCache |
| src/main/java/lc/cy/cache/caffine/RedisCaffeineCache.java:74-76 | `get(key, loader)` returns the raw `lookup` result, which is the stored sentinel when a null was cached | put `k` with null (nulls allowed), then `get(k, loader)` returns the NullValue sentinel | return null, as `fromStoreValue` would | medium (not executed) | Cache.GetAsWrittenLeaksSentinel | Cache.Get |
| src/main/java/lc/cy/cache/CaffineChangeMessageListener.java:31 | `fromJson(cachevalue, CacheMessage.class)` reads the `Object` key from JSON that carries no type information, so the key comes back as whatever type the mapper picks for its JSON value | a cache keyed by `Long`: node A's `put(5L, v)` publishes key `5`, node B reads it back as the `Integer` 5, `invalidate(5)` misses B's entry for `5L`, and B keeps serving its old value | the receiver invalidates the very key the sender wrote (a type-preserving encoding, or `String` keys only) | medium (not executed) | Cluster.LongKeyLeavesPeerStale | Cluster.PutThenDeliverIsCoherent |

=== FILE: cache.dfy ===
/**
 * One cache instance (`RedisCaffeineCache`): the coherence protocol of a
 * single cache name on a single node. Writes go to the remote tier first,
 * then an invalidation message is published, then the node's own local
 * tier is updated; reads go local, then remote, then to the caller's loader.
 */
module Cache {
  import opened Wrappers
  import opened Config
  import opened Text
  import opened Tiers

  /**
   * The immutable part of an instance, fixed by its constructor. `toStr`
   * is the key objects' `toString()`, which the model leaves abstract.
   */
  datatype CacheCfg<!K> = CacheCfg(
    name: string,
    prefix: Option<string>,
    ttl: Long,
    allowNull: bool,
    topic: string,
    toStr: K -> string)

  /** The constructor. It dereferences the `Redis` sub-record, which must therefore be set. */
  function NewCache<K>(name: string, props: Props, toStr: K -> string): CacheCfg<K>
    requires props.redis.Some?
  {
    var r := props.redis.value;
    CacheCfg(name, props.cachePrefix, ResolveTtl(r, name), props.allowNull, r.topic, toStr)
  }

  /** The remote key of `k`: `name:key`, or `name:prefix:key` when a prefix is configured. */
  function RedisKey<K>(c: CacheCfg<K>, k: K): (rk: string)
    ensures StartsWith(rk, c.name + ":")
  {
    var rendered := c.toStr(k);
    var suffix := if IsEmpty(c.prefix) then rendered else c.prefix.value + ":" + rendered;
    assert (c.name + ":" + suffix)[..|c.name + ":"|] == c.name + ":";
    c.name + ":" + suffix
  }

  /** The entry a write stores: with an expiry only when the TTL is positive. */
  function Written<K, V>(c: CacheCfg<K>, sv: StoreVal<V>): Entry<V> {
    Entry(sv, if c.ttl > 0 then Some(c.ttl as int) else None)
  }

  /** `toStoreValue`: a Java null becomes the sentinel. */
  function ToStoreValue<V>(value: Option<StoreVal<V>>): StoreVal<V> {
    value.GetOr(NullSentinel)
  }

  /** `fromStoreValue`: the sentinel becomes a Java null. */
  function FromStoreValue<V>(sv: StoreVal<V>): Option<V> {
    match sv
    case NullSentinel => None
    case Val(v) => Some(v)
  }

  /** The invalidation this instance publishes about `key` (None: the whole cache). */
  function Notice<K>(c: CacheCfg<K>, key: Option<K>): Published<K> {
    Published(c.topic, CacheMessage(c.name, key))
  }

  function ErrorOf<R>(r: Result<R, CacheError>): Option<CacheError> {
    if r.Err? then Some(r.error) else None
  }

  /**
   * The outcome `(w', err)` of "set the remote tier to `data'`, publish
   * `item`, set the local tier to `local'`" from world `w`, for each
   * availability of the store and the bus.
   */
  ghost predicate WriteThrough<K, V>(w: World<K, V>, data': map<string, Entry<V>>, item: Published<K>,
                                     local': map<K, StoreVal<V>>, w': World<K, V>, err: Option<CacheError>)
  {
    if !w.store.up then w' == w && err == Some(StoreUnavailable)
    else if !w.bus.up then w' == w.(store := w.store.(data := data')) && err == Some(BusUnavailable)
    else w' == World(local', w.store.(data := data'), w.bus.(log := w.bus.log + [item])) && err == None
  }

  /** The statements of `put` once the value is known: remote set, publish, local put. */
  function WritePlan<K, V>(c: CacheCfg<K>, k: K, sv: StoreVal<V>): (plan: seq<Effect<K, V>>)
    ensures Ordered(plan) && Load !in plan
  {
    [RemoteSet(RedisKey(c, k), Written(c, sv)), Publish(Notice(c, Some(k))), LocalPut(k, sv)]
  }

  /** The statements of `evict`: remote delete, publish, local invalidate. */
  function EvictPlan<K, V>(c: CacheCfg<K>, k: K): (plan: seq<Effect<K, V>>)
    ensures Ordered(plan)
  {
    [RemoteDelete({RedisKey(c, k)}), Publish(Notice(c, Some(k))), LocalInvalidate(k)]
  }

  /** The pattern `clear` deletes: every key of this cache's namespace. */
  function NamespacePattern<K>(c: CacheCfg<K>): string {
    c.name + ":*"
  }

  /** The statements of `clear`: KEYS, DEL when something matched, publish, local invalidateAll. */
  function ClearPlan<K, V>(c: CacheCfg<K>, data: map<string, Entry<V>>): (plan: seq<Effect<K, V>>)
    ensures Ordered(plan)
  {
    var keys := MatchingKeys(data, NamespacePattern(c));
    [RemoteKeys(NamespacePattern(c))]
      + (if keys == {} then [] else [RemoteDelete(keys)])
      + [Publish(Notice(c, None)), LocalInvalidateAll]
  }

  /** A three-statement write plan runs as `WriteThrough` describes. */
  lemma RunWritePlan<K, V>(w: World<K, V>, r: Effect<K, V>, p: Published<K>, l: Effect<K, V>)
    requires IsRemote(r) && IsLocal(l)
    ensures var o := Run(w, [r, Publish(p), l]);
      WriteThrough(w, Apply(w, r).store.data, p, Apply(Apply(Apply(w, r), Publish(p)), l).local, o.w, ErrorOf(o.res))
  {
    var plan := [r, Publish(p), l];
    var w1 := Apply(w, r);
    var w2 := Apply(w1, Publish(p));
    assert plan[1..] == [Publish(p), l];
    assert plan[1..][1..] == [l];
    if w.store.up {
      assert Run(w, plan) == Out(Run(w1, plan[1..]).w, [r] + Run(w1, plan[1..]).trace, Run(w1, plan[1..]).res);
      if w.bus.up {
        assert Run(w1, plan[1..]).w == Run(w2, [l]).w;
        assert Run(w2, [l]) == Out(Apply(w2, l), [l], Ok(()));
      }
    }
  }

  /** `evict(k)`. */
  function Evict<K, V>(c: CacheCfg<K>, w: World<K, V>, k: K): (o: Out<K, V, ()>)
    ensures Ordered(o.trace)
    ensures WriteThrough(w, w.store.data - {RedisKey(c, k)}, Notice(c, Some(k)), Invalidate(w.local, k), o.w, ErrorOf(o.res))
  {
    RunExecutesPrefix(w, EvictPlan(c, k));
    RunWritePlan(w, RemoteDelete({RedisKey(c, k)}), Notice(c, Some(k)), LocalInvalidate(k));
    Run(w, EvictPlan(c, k))
  }

  /** `put(k, value)`; `value` None is a Java null. */
  function Put<K, V>(c: CacheCfg<K>, w: World<K, V>, k: K, value: Option<StoreVal<V>>): (o: Out<K, V, ()>)
    ensures Ordered(o.trace) && Load !in o.trace
    ensures !c.allowNull && value.None? ==> o == Evict(c, w, k)
    ensures c.allowNull || value.Some? ==>
      var sv := ToStoreValue(value);
      WriteThrough(w, w.store.data[RedisKey(c, k) := Written(c, sv)], Notice(c, Some(k)), w.local[k := sv], o.w, ErrorOf(o.res))
  {
    if !c.allowNull && value.None? then
      var o := Evict(c, w, k);
      RunExecutesPrefix(w, EvictPlan(c, k));
      assert Load !in EvictPlan<K, V>(c, k);
      o
    else
      var sv := ToStoreValue(value);
      RunExecutesPrefix(w, WritePlan(c, k, sv));
      RunWritePlan(w, RemoteSet(RedisKey(c, k), Written(c, sv)), Notice(c, Some(k)), LocalPut(k, sv));
      Run(w, WritePlan(c, k, sv))
  }

  /** `lookup(k)`: local tier, then remote tier; a remote hit is copied into the local tier. */
  function Lookup<K, V>(c: CacheCfg<K>, w: World<K, V>, k: K): (o: Out<K, V, Option<StoreVal<V>>>)
    // a read never changes the remote tier and never publishes
    ensures o.w.store == w.store && o.w.bus == w.bus
    ensures Ordered(o.trace) && Load !in o.trace
    // a local hit is answered without any remote call
    ensures k in w.local ==> o.w == w && o.trace == [] && o.res == Ok(Some(w.local[k]))
    // a local miss asks the remote tier, whose failure propagates
    ensures k !in w.local && !w.store.up ==> o.w == w && o.res == Err(StoreUnavailable)
    ensures k !in w.local && w.store.up ==>
      var rk := RedisKey(c, k);
      && (rk in w.store.data ==>
            o.res == Ok(Some(w.store.data[rk].value)) && o.w.local == w.local[k := w.store.data[rk].value])
      && (rk !in w.store.data ==> o.res == Ok(None) && o.w == w)
    // whatever a lookup returns is afterwards in the local tier
    ensures o.res.Ok? && o.res.value.Some? ==> k in o.w.local && o.w.local[k] == o.res.value.value
  {
    if k in w.local then Out(w, [], Ok(Some(w.local[k])))
    else
      var rk := RedisKey(c, k);
      match Fault(w, RemoteGet(rk))
      case Some(err) => Out(w, [], Err(err))
      case None =>
        if rk in w.store.data then
          var sv := w.store.data[rk].value;
          Out(Apply(w, LocalPut(k, sv)), [RemoteGet(rk), LocalPut(k, sv)], Ok(Some(sv)))
        else Out(w, [RemoteGet(rk)], Ok(None))
  }

  /** What the caller's loader does when it is called. */
  datatype Loader<V> = Returns(value: Option<V>) | Throws

  /** The loader's raw result as the Java object `get` hands back. */
  function Wrap<V>(v: Option<V>): Option<StoreVal<V>> {
    if v.None? then None else Some(Val(v.value))
  }

  /**
   * `get(k, loader)` as the source writes it: a lookup outside the lock,
   * a second lookup inside it, then the loader, whose result goes through
   * `put`. A hit returns the stored object itself, sentinel included.
   * Failures inside the lock come back wrapped as ValueRetrieval.
   */
  function GetAsWritten<K, V>(c: CacheCfg<K>, w: World<K, V>, k: K, loader: Loader<V>): (o: Out<K, V, Option<StoreVal<V>>>)
    ensures Ordered(o.trace)
    // a hit in either tier returns the stored object without calling the loader
    ensures k in w.local ==> o == Out(w, [], Ok(Some(w.local[k])))
    ensures k !in w.local && w.store.up && RedisKey(c, k) in w.store.data ==>
      o.res == Ok(Some(w.store.data[RedisKey(c, k)].value)) && Load !in o.trace
    // the first lookup runs outside the try block: its failure escapes unwrapped
    ensures k !in w.local && !w.store.up ==> o == Out(w, [], Err(StoreUnavailable))
    // on a miss the loader is called, and whatever the outcome the remote and bus change only through `put`
    ensures k !in w.local && w.store.up && RedisKey(c, k) !in w.store.data ==>
      && Load in o.trace
      && (loader.Throws? ==> o.w == w && o.res == Err(ValueRetrieval))
      && (loader.Returns? && loader.value.None? && !c.allowNull ==> o.w == w && o.res == Err(ValueRetrieval))
  {
    var o1 := Lookup(c, w, k);
    if o1.res.Err? || o1.res.value.Some? then o1
    else
      var o2 := Lookup(c, o1.w, k);
      var t := o1.trace + o2.trace;
      if o2.res.Err? then Out(o2.w, t, Err(ValueRetrieval))
      else if o2.res.value.Some? then Out(o2.w, t, o2.res)
      else
        var tl := t + [Load];
        match loader
        case Throws => Out(o2.w, tl, Err(ValueRetrieval))
        case Returns(v) =>
          if v.None? && !c.allowNull then Out(o2.w, tl, Err(ValueRetrieval))
          else
            var o3 := Put(c, o2.w, k, Some(ToStoreValue(Wrap(v))));
            OrderedAfterReads(t + [Load], o3.trace);
            Out(o3.w, tl + o3.trace, if o3.res.Err? then Err(ValueRetrieval) else Ok(Wrap(v)))
  }

  /** `get(k, loader)` as intended: a cached null comes back as null. */
  function Get<K, V>(c: CacheCfg<K>, w: World<K, V>, k: K, loader: Loader<V>): (o: Out<K, V, Option<V>>)
    ensures Ordered(o.trace)
    // same effects as written; only a returned sentinel is turned back into null
    ensures o.w == GetAsWritten(c, w, k, loader).w && o.trace == GetAsWritten(c, w, k, loader).trace
    ensures k in w.local ==> o == Out(w, [], Ok(FromStoreValue(w.local[k])))
    ensures GetAsWritten(c, w, k, loader).res == Ok(Some(NullSentinel)) ==> o.res == Ok(None)
    // a remote hit returns the stored value unwrapped, without calling the loader
    ensures k !in w.local && w.store.up && RedisKey(c, k) in w.store.data ==>
      o.res == Ok(FromStoreValue(w.store.data[RedisKey(c, k)].value)) && Load !in o.trace
    // a store outage on the first lookup reaches the caller unwrapped
    ensures k !in w.local && !w.store.up ==> o == Out(w, [], Err(StoreUnavailable))
    // a miss calls the loader; its value is returned once `put` has written it through
    ensures k !in w.local && w.store.up && RedisKey(c, k) !in w.store.data ==>
      && Load in o.trace
      && (loader.Throws? ==> o.w == w && o.res == Err(ValueRetrieval))
      && (loader.Returns? && loader.value.None? && !c.allowNull ==> o.w == w && o.res == Err(ValueRetrieval))
      && (loader.Returns? && (c.allowNull || loader.value.Some?) ==>
            && (w.bus.up ==> o.res == Ok(loader.value))
            && (!w.bus.up ==> o.res == Err(ValueRetrieval)))
  {
    var o := GetAsWritten(c, w, k, loader);
    Out(o.w, o.trace, match o.res case Ok(r) => Ok(if r.None? then None else FromStoreValue(r.value))
                                   case Err(e) => Err(e))
  }

  /**
   * `putIfAbsent(k, value)`: only the remote tier is consulted. The result
   * is the previous value's wrapper (Some), or None when the write happened.
   */
  function PutIfAbsent<K, V>(c: CacheCfg<K>, w: World<K, V>, k: K, value: Option<StoreVal<V>>): (o: Out<K, V, Option<Option<V>>>)
    ensures Ordered(o.trace)
    ensures !w.store.up ==> o.w == w && o.res == Err(StoreUnavailable)
    // a present remote key: nothing changes, nothing is published, the old value is returned
    ensures w.store.up && RedisKey(c, k) in w.store.data ==>
      o.w == w && Publications(o.trace) == [] && o.res == Ok(Some(FromStoreValue(w.store.data[RedisKey(c, k)].value)))
    // an absent remote key: the same write-through as put
    ensures w.store.up && RedisKey(c, k) !in w.store.data && (c.allowNull || value.Some?) ==>
      var sv := ToStoreValue(value);
      && WriteThrough(w, w.store.data[RedisKey(c, k) := Written(c, sv)], Notice(c, Some(k)), w.local[k := sv], o.w, ErrorOf(o.res))
      && (o.res.Ok? ==> o.res.value == None)
    ensures w.store.up && RedisKey(c, k) !in w.store.data && !c.allowNull && value.None? ==>
      o.w == w && o.res == Err(NullNotAllowed)
  {
    var rk := RedisKey(c, k);
    match Fault(w, RemoteGet(rk))
    case Some(err) => Out(w, [], Err(err))
    case None =>
      if rk in w.store.data then Out(w, [RemoteGet(rk)], Ok(Some(FromStoreValue(w.store.data[rk].value))))
      else if value.None? && !c.allowNull then Out(w, [RemoteGet(rk)], Err(NullNotAllowed))
      else
        var sv := ToStoreValue(value);
        var o := Run(w, WritePlan(c, k, sv));
        RunExecutesPrefix(w, WritePlan(c, k, sv));
        RunWritePlan(w, RemoteSet(rk, Written(c, sv)), Notice(c, Some(k)), LocalPut(k, sv));
        OrderedPrefix(WritePlan(c, k, sv), |o.trace|);
        OrderedAfterReads([RemoteGet(rk)], o.trace);
        Out(o.w, [RemoteGet(rk)] + o.trace, if o.res.Ok? then Ok(None) else Err(o.res.error))
  }

  /** The statements of `clear` run as a write-through of the namespace deletion. */
  lemma RunClearPlan<K, V>(c: CacheCfg<K>, w: World<K, V>)
    ensures var o := Run(w, ClearPlan(c, w.store.data));
      WriteThrough(w, w.store.data - MatchingKeys(w.store.data, NamespacePattern(c)),
                   Notice(c, None), map[], o.w, ErrorOf(o.res))
  {
    var plan := ClearPlan(c, w.store.data);
    var keys := MatchingKeys(w.store.data, NamespacePattern(c));
    if keys == {} {
      assert w.store.data - keys == w.store.data;
      assert plan == [RemoteKeys(NamespacePattern(c)), Publish(Notice(c, None)), LocalInvalidateAll];
      RunWritePlan(w, RemoteKeys(NamespacePattern(c)), Notice(c, None), LocalInvalidateAll);
    } else {
      assert plan[1..] == [RemoteDelete(keys), Publish(Notice(c, None)), LocalInvalidateAll];
      RunWritePlan(w, RemoteDelete(keys), Notice(c, None), LocalInvalidateAll);
    }
  }

  /** `clear()`: delete the namespace remotely, publish a key-less message, empty the local tier. */
  function Clear<K, V>(c: CacheCfg<K>, w: World<K, V>): (o: Out<K, V, ()>)
    ensures Ordered(o.trace)
    ensures WriteThrough(w, w.store.data - MatchingKeys(w.store.data, NamespacePattern(c)),
                         Notice(c, None), map[], o.w, ErrorOf(o.res))
  {
    RunExecutesPrefix(w, ClearPlan(c, w.store.data));
    RunClearPlan(c, w);
    Run(w, ClearPlan(c, w.store.data))
  }

  /** `clearLocal(key)`: a null key empties the local tier, any other key drops that entry. */
  function ClearLocal<K, V>(local: map<K, StoreVal<V>>, key: Option<K>): (r: map<K, StoreVal<V>>)
    ensures key.None? ==> r == map[]
    ensures key.Some? ==> r.Keys == local.Keys - {key.value}
    ensures forall k' | k' in r :: k' in local && r[k'] == local[k']
  {
    match key
    case None => InvalidateAll(local)
    case Some(k) => Invalidate(local, k)
  }

  /** The pattern `clearRedis(prefix)` purges: a `*` is appended unless the prefix ends with one. */
  function PrefixPattern(name: string, prefix: string): string {
    name + ":" + (if |prefix| > 0 && prefix[|prefix| - 1] == '*' then prefix else prefix + "*")
  }

  /** `clearRedis(prefix)`: purge by prefix; it touches the remote tier only. */
  function ClearRedis<K, V>(c: CacheCfg<K>, store: Store<V>, prefix: string): (r: Purged<V>)
    ensures !HasText(prefix) ==> r == Purged(store, Err(IllegalArgument))
    ensures HasText(prefix) && !store.up ==> r == Purged(store, Err(StoreUnavailable))
    ensures HasText(prefix) && store.up ==>
      r.res.Ok? && r.store.up &&
      forall rk :: rk in r.store.data <==> rk in store.data && !Glob(PrefixPattern(c.name, prefix), rk)
  {
    if !HasText(prefix) then Purged(store, Err(IllegalArgument))
    else Purge(store, PrefixPattern(c.name, prefix))
  }

  // ---------------------------------------------------------------------
  // Properties of the protocol
  // ---------------------------------------------------------------------

  /** Two keys share a remote key exactly when they render to the same string. */
  lemma RedisKeyInjective<K>(c: CacheCfg<K>, k1: K, k2: K)
    ensures RedisKey(c, k1) == RedisKey(c, k2) <==> c.toStr(k1) == c.toStr(k2)
  {
    var head := c.name + ":" + (if IsEmpty(c.prefix) then "" else c.prefix.value + ":");
    assert RedisKey(c, k1) == head + c.toStr(k1);
    assert RedisKey(c, k2) == head + c.toStr(k2);
    if RedisKey(c, k1) == RedisKey(c, k2) {
      assert c.toStr(k1) == (head + c.toStr(k1))[|head|..];
      assert c.toStr(k2) == (head + c.toStr(k2))[|head|..];
    }
  }

  /** Caches whose names contain no ':' never share a remote key. */
  lemma NamespacesDisjoint<K>(c1: CacheCfg<K>, c2: CacheCfg<K>, k1: K, k2: K)
    requires c1.name != c2.name
    requires ':' !in c1.name && ':' !in c2.name
    ensures RedisKey(c1, k1) != RedisKey(c2, k2)
  {
    var r1, r2 := RedisKey(c1, k1), RedisKey(c2, k2);
    var n1, n2 := c1.name, c2.name;
    if |n1| < |n2| {
      assert r1[|n1|] == ':' && r2[|n1|] == n2[|n1|];
    } else if |n2| < |n1| {
      assert r2[|n2|] == ':' && r1[|n2|] == n1[|n2|];
    } else {
      var i :| 0 <= i < |n1| && n1[i] != n2[i];
      assert r1[i] == n1[i] && r2[i] == n2[i];
    }
  }

  /** With a ':' in a name, cache "a" and cache "a:b" do share remote keys. */
  lemma NamespaceOverlap()
    ensures var id := (s: string) => s;
      RedisKey(CacheCfg("a", None, 0, true, DEFAULT_TOPIC, id), "b:x")
        == RedisKey(CacheCfg("a:b", None, 0, true, DEFAULT_TOPIC, id), "x")
  {
  }

  /** Every remote key of the instance matches the namespace pattern that `clear` purges. */
  lemma NamespaceCoversKeys<K>(c: CacheCfg<K>, k: K)
    ensures Glob(NamespacePattern(c), RedisKey(c, k))
  {
    var rk := RedisKey(c, k);
    PatternMatchesOwnExtensions(c.name + ":", rk[|c.name| + 1..]);
    assert (c.name + ":") + rk[|c.name| + 1..] == rk;
    assert NamespacePattern(c) == (c.name + ":") + "*";
  }

  /** After a successful `clear` no key of the instance is left remotely and the local tier is empty. */
  lemma ClearEmptiesNamespace<K, V>(c: CacheCfg<K>, w: World<K, V>, k: K)
    requires Clear(c, w).res.Ok?
    ensures RedisKey(c, k) !in Clear(c, w).w.store.data
    ensures Clear(c, w).w.local == map[]
    ensures Clear(c, w).w.bus.log == w.bus.log + [Notice(c, None)]
  {
    NamespaceCoversKeys(c, k);
  }

  /**
   * When neither name contains ':' and the cleared one has no '*', `clear`
   * on one cache keeps every remote entry of another cache. (Cache "a" and
   * cache "a:b" are not such a pair: `NamespaceOverlap`.)
   */
  lemma ClearSparesOtherNamespaces<K, V>(c1: CacheCfg<K>, c2: CacheCfg<K>, w: World<K, V>, k: K)
    requires c1.name != c2.name
    requires ':' !in c1.name && ':' !in c2.name && StarFree(c1.name)
    requires RedisKey(c2, k) in w.store.data
    ensures var rk := RedisKey(c2, k);
      rk in Clear(c1, w).w.store.data && Clear(c1, w).w.store.data[rk] == w.store.data[rk]
  {
    var rk, p := RedisKey(c2, k), c1.name + ":";
    assert StarFree(p) by {
      forall i | 0 <= i < |p| ensures p[i] != '*' {
        if i < |c1.name| { assert p[i] == c1.name[i]; }
      }
    }
    TrailingStarIsPrefix(p, rk);
    assert NamespacePattern(c1) == p + "*";
    ColonNamesPrefix(c1.name, c2.name, rk[|c2.name| + 1..]);
    assert rk !in MatchingKeys(w.store.data, NamespacePattern(c1));
  }

  /** The position of the first ':' in `s`, or `|s|` when there is none. */
  function ColonIndex(s: string): (i: nat)
    ensures i <= |s|
  {
    if s == [] || s[0] == ':' then 0 else 1 + ColonIndex(s[1..])
  }

  lemma {:induction false} ColonIndexAfterName(n: string, r: string)
    requires ':' !in n
    ensures ColonIndex(n + ":" + r) == |n|
  {
    if n != [] {
      assert (n + ":" + r)[1..] == n[1..] + ":" + r;
      ColonIndexAfterName(n[1..], r);
    }
  }

  /** A key `n2:r` lies in the namespace `n1:` only when the `:`-free names agree. */
  lemma ColonNamesPrefix(n1: string, n2: string, r: string)
    requires ':' !in n1 && ':' !in n2
    ensures StartsWith(n2 + ":" + r, n1 + ":") ==> n1 == n2
  {
    var s := n2 + ":" + r;
    if StartsWith(s, n1 + ":") {
      assert s == n1 + ":" + s[|n1| + 1..];
      ColonIndexAfterName(n1, s[|n1| + 1..]);
      ColonIndexAfterName(n2, r);
      assert n1 == s[..|n1|] == n2;
    }
  }

  /** With star-free name and prefix, `clearRedis` deletes exactly the keys starting with `name:prefix`. */
  lemma ClearRedisDeletesPrefix<K, V>(c: CacheCfg<K>, store: Store<V>, prefix: string, rk: string)
    requires HasText(prefix) && store.up
    requires StarFree(c.name) && StarFree(prefix)
    ensures rk in ClearRedis(c, store, prefix).store.data
        <==> rk in store.data && !StartsWith(rk, c.name + ":" + prefix)
  {
    var p := c.name + ":" + prefix;
    assert PrefixPattern(c.name, prefix) == p + "*";
    assert StarFree(p) by {
      forall i | 0 <= i < |p| ensures p[i] != '*' {
        if i < |c.name| { assert p[i] == c.name[i]; }
        else if i > |c.name| { assert p[i] == prefix[i - |c.name| - 1]; }
      }
    }
    TrailingStarIsPrefix(p, rk);
  }

  /** The TTL a written entry carries: the per-name override if configured, else the default; none when not positive. */
  lemma TtlPrecedence<K, V>(name: string, props: Props, toStr: K -> string, sv: StoreVal<V>)
    requires props.redis.Some?
    ensures var r := props.redis.value;
      var ttl := if name in r.expires then r.expires[name] else r.defaultExpires;
      Written(NewCache(name, props, toStr), sv).ttl == (if ttl > 0 then Some(ttl as int) else None)
  {
  }

  /** Round trip: after a successful `put`, `lookup` answers from the local tier with the stored value. */
  lemma PutThenLookup<K, V>(c: CacheCfg<K>, w: World<K, V>, k: K, value: Option<StoreVal<V>>)
    requires c.allowNull || value.Some?
    requires Put(c, w, k, value).res.Ok?
    ensures var w' := Put(c, w, k, value).w;
      Lookup(c, w', k) == Out(w', [], Ok(Some(ToStoreValue(value))))
  {
  }

  /** Round trip: after a successful `put(k, v)`, `get(k, loader)` returns v and never calls the loader. */
  lemma PutThenGet<K, V>(c: CacheCfg<K>, w: World<K, V>, k: K, v: Option<V>, loader: Loader<V>)
    requires c.allowNull || v.Some?
    requires Put(c, w, k, Wrap(v)).res.Ok?
    ensures var o := Get(c, Put(c, w, k, Wrap(v)).w, k, loader);
      o.res == Ok(v) && Load !in o.trace
  {
  }

  /** After a successful `evict`, both tiers miss. */
  lemma EvictThenLookupMisses<K, V>(c: CacheCfg<K>, w: World<K, V>, k: K)
    requires Evict(c, w, k).res.Ok?
    ensures var w' := Evict(c, w, k).w;
      Lookup(c, w', k) == Out(w', [RemoteGet(RedisKey(c, k))], Ok(None))
  {
  }

  /** `put(k, null)` with null values disallowed is exactly `evict(k)`. */
  lemma PutNullIsEvict<K, V>(c: CacheCfg<K>, w: World<K, V>, k: K)
    requires !c.allowNull
    ensures Put(c, w, k, None) == Evict(c, w, k)
  {
  }

  /** The loader runs iff neither tier holds the key and the remote read succeeded. */
  lemma GetCallsLoaderOnlyOnMiss<K, V>(c: CacheCfg<K>, w: World<K, V>, k: K, loader: Loader<V>)
    ensures Load in Get(c, w, k, loader).trace
        <==> k !in w.local && w.store.up && RedisKey(c, k) !in w.store.data
  {
    var o1 := Lookup(c, w, k);
    if k !in w.local && w.store.up && RedisKey(c, k) !in w.store.data {
      var t := o1.trace + Lookup(c, o1.w, k).trace;
      assert (t + [Load])[|t|] == Load;
    }
  }

  /** A throwing loader leaves both tiers and the message log as they were. */
  lemma LoaderFailureChangesNothing<K, V>(c: CacheCfg<K>, w: World<K, V>, k: K)
    ensures var o := Get(c, w, k, Throws);
      Load in o.trace ==> o.w == w && o.res == Err(ValueRetrieval)
  {
    GetCallsLoaderOnlyOnMiss(c, w, k, Throws);
  }

  /** On a miss the loader's value goes through `put` and is returned. */
  lemma GetMissWritesThrough<K, V>(c: CacheCfg<K>, w: World<K, V>, k: K, v: Option<V>)
    requires k !in w.local && w.store.up && RedisKey(c, k) !in w.store.data
    requires c.allowNull || v.Some?
    ensures var o := Get(c, w, k, Returns(v));
      var p := Put(c, w, k, Some(ToStoreValue(Wrap(v))));
      o.w == p.w && (p.res.Ok? ==> o.res == Ok(v)) && (p.res.Err? ==> o.res == Err(ValueRetrieval))
  {
  }

  /**
   * With null values allowed, a loader that returns null is called once:
   * the sentinel it leaves behind answers the next `get`, which returns null.
   */
  lemma NullLoadedOnce<K, V>(c: CacheCfg<K>, w: World<K, V>, k: K, next: Loader<V>)
    requires c.allowNull && w.store.up && w.bus.up
    requires k !in w.local && RedisKey(c, k) !in w.store.data
    ensures var o1 := Get(c, w, k, Returns(None));
      var o2 := Get(c, o1.w, k, next);
      o1.res == Ok(None) && o1.w.local[k] == NullSentinel
      && o2.res == Ok(None) && Load !in o2.trace
  {
  }

  /** As written, `get` on a cached null returns the sentinel object rather than null. */
  lemma GetAsWrittenLeaksSentinel<K, V>(c: CacheCfg<K>, w: World<K, V>, k: K, loader: Loader<V>)
    requires k in w.local && w.local[k] == NullSentinel
    ensures GetAsWritten(c, w, k, loader).res == Ok(Some(NullSentinel))
    ensures Get(c, w, k, loader).res == Ok(None)
  {
  }

  /** `putIfAbsent` decides on the remote tier alone: the local tier does not affect its result. */
  lemma PutIfAbsentIgnoresLocal<K, V>(c: CacheCfg<K>, w: World<K, V>, other: map<K, StoreVal<V>>, k: K, value: Option<StoreVal<V>>)
    ensures PutIfAbsent(c, w, k, value).res == PutIfAbsent(c, w.(local := other), k, value).res
  {
  }
}

=== FILE: cluster.dfy ===
/**
 * Several nodes sharing one remote store and one invalidation bus. Each
 * node has its own registry and hence its own local tiers. Operations run
 * one at a time; delivering a published message to a node is a separate
 * step, so a peer may stay stale for as long as delivery is pending.
 */
module Cluster {
  import opened Wrappers
  import opened Config
  import opened Tiers
  import opened Cache
  import opened Registry
  import opened Listener
  import opened Wire

  datatype System<!K, V> = System(nodes: seq<Registry<K, V>>, store: Store<V>, bus: Bus<K>)

  /** Node `i` has created an instance named `name`. */
  predicate Hosts<K, V>(sys: System<K, V>, i: nat, name: string) {
    i < |sys.nodes| && name in sys.nodes[i].caches
  }

  function CfgAt<K, V>(sys: System<K, V>, i: nat, name: string): CacheCfg<K>
    requires Hosts(sys, i, name)
  {
    sys.nodes[i].caches[name].cfg
  }

  /** What instance `name` on node `i` sees. */
  function View<K, V>(sys: System<K, V>, i: nat, name: string): World<K, V>
    requires Hosts(sys, i, name)
  {
    World(sys.nodes[i].caches[name].local, sys.store, sys.bus)
  }

  /** Write back what an operation of instance `name` on node `i` left behind. */
  function Commit<K, V>(sys: System<K, V>, i: nat, name: string, w: World<K, V>): (s: System<K, V>)
    requires Hosts(sys, i, name)
    ensures |s.nodes| == |sys.nodes| && Hosts(s, i, name) && View(s, i, name) == w
    ensures forall j, n | Hosts(sys, j, n) :: Hosts(s, j, n) && CfgAt(s, j, n) == CfgAt(sys, j, n)
    ensures forall j | 0 <= j < |sys.nodes| && j != i :: s.nodes[j] == sys.nodes[j]
  {
    var reg := sys.nodes[i];
    var inst := reg.caches[name];
    System(sys.nodes[i := reg.(caches := reg.caches[name := inst.(local := w.local)])], w.store, w.bus)
  }

  /** The system after one step, and the step's result. */
  datatype Step<!K, V, R> = Step(sys: System<K, V>, res: Result<R, CacheError>)

  function NodePut<K, V>(sys: System<K, V>, i: nat, name: string, k: K, value: Option<StoreVal<V>>): Step<K, V, ()>
    requires Hosts(sys, i, name)
  {
    var o := Put(CfgAt(sys, i, name), View(sys, i, name), k, value);
    Step(Commit(sys, i, name, o.w), o.res)
  }

  function NodeEvict<K, V>(sys: System<K, V>, i: nat, name: string, k: K): Step<K, V, ()>
    requires Hosts(sys, i, name)
  {
    var o := Evict(CfgAt(sys, i, name), View(sys, i, name), k);
    Step(Commit(sys, i, name, o.w), o.res)
  }

  function NodeClear<K, V>(sys: System<K, V>, i: nat, name: string): Step<K, V, ()>
    requires Hosts(sys, i, name)
  {
    var o := Clear(CfgAt(sys, i, name), View(sys, i, name));
    Step(Commit(sys, i, name, o.w), o.res)
  }

  function NodeLookup<K, V>(sys: System<K, V>, i: nat, name: string, k: K): Step<K, V, Option<StoreVal<V>>>
    requires Hosts(sys, i, name)
  {
    var o := Lookup(CfgAt(sys, i, name), View(sys, i, name), k);
    Step(Commit(sys, i, name, o.w), o.res)
  }

  /**
   * How a message crosses the bus: `encode` is the sender's `toJson` plus
   * the template's serializer, `decode` the receiver's deserializer plus
   * `fromJson` (None: it throws).
   */
  datatype Codec<!K> = Codec(encode: CacheMessage<K> -> string, decode: string -> Option<CacheMessage<K>>)

  /** The receiver reads back exactly the message that was sent. */
  ghost predicate RoundTrips<K>(codec: Codec<K>, m: CacheMessage<K>) {
    codec.decode(codec.encode(m)) == Some(m)
  }

  /** Hand bus entry `e` to node `j`'s listener. */
  function Deliver<K, V>(sys: System<K, V>, j: nat, e: nat, codec: Codec<K>): (s: System<K, V>)
    requires j < |sys.nodes| && e < |sys.bus.log|
    // handling a message writes nothing remotely and publishes nothing
    ensures s.store == sys.store && s.bus == sys.bus
    ensures |s.nodes| == |sys.nodes| && forall i | 0 <= i < |sys.nodes| && i != j :: s.nodes[i] == sys.nodes[i]
    ensures forall i, n | Hosts(sys, i, n) :: Hosts(s, i, n) && CfgAt(s, i, n) == CfgAt(sys, i, n)
  {
    var payload := codec.encode(sys.bus.log[e].msg);
    sys.(nodes := sys.nodes[j := OnMessage(sys.nodes[j], payload, codec.decode).reg])
  }

  /** Hand node `j` every bus entry from `from` on, in order. */
  function DeliverAll<K, V>(sys: System<K, V>, j: nat, from: nat, codec: Codec<K>): (s: System<K, V>)
    requires j < |sys.nodes| && from <= |sys.bus.log|
    // no amount of delivery produces further messages or remote writes: there is no invalidation loop
    ensures s.store == sys.store && s.bus == sys.bus
    ensures |s.nodes| == |sys.nodes| && forall i | 0 <= i < |sys.nodes| && i != j :: s.nodes[i] == sys.nodes[i]
    decreases |sys.bus.log| - from
  {
    if from == |sys.bus.log| then sys
    else DeliverAll(Deliver(sys, j, from, codec), j, from + 1, codec)
  }

  // ---------------------------------------------------------------------
  // Cross-node coherence
  // ---------------------------------------------------------------------

  /** Nodes built from the same properties and key rendering configure a shared name identically. */
  lemma SharedConfigAgrees<K, V>(sys: System<K, V>, a: nat, b: nat, name: string)
    requires Hosts(sys, a, name) && Hosts(sys, b, name)
    requires Wf(sys.nodes[a]) && Wf(sys.nodes[b])
    requires sys.nodes[a].props == sys.nodes[b].props && sys.nodes[a].toStr == sys.nodes[b].toStr
    ensures CfgAt(sys, a, name) == CfgAt(sys, b, name)
  {
  }

  /**
   * Once node A's `put(k, v)` message has been delivered to node B, B holds
   * no local entry for k, and B's next lookup returns the value A wrote,
   * provided the codec carries the message across unchanged.
   */
  lemma PutThenDeliverIsCoherent<K, V>(sys: System<K, V>, a: nat, b: nat, name: string, k: K,
                                       value: Option<StoreVal<V>>, codec: Codec<K>)
    requires Hosts(sys, a, name) && Hosts(sys, b, name) && name != "" && Wf(sys.nodes[a])
    requires CfgAt(sys, b, name) == CfgAt(sys, a, name)
    requires CfgAt(sys, a, name).allowNull || value.Some?
    requires NodePut(sys, a, name, k, value).res.Ok?
    requires RoundTrips(codec, CacheMessage(name, Some(k)))
    ensures var s1 := NodePut(sys, a, name, k, value).sys;
      var e := |sys.bus.log|;
      && s1.bus.log == sys.bus.log + [Published(CfgAt(sys, a, name).topic, CacheMessage(name, Some(k)))]
      && var s2 := Deliver(s1, b, e, codec);
      && Hosts(s2, b, name)
      && k !in s2.nodes[b].caches[name].local
      && NodeLookup(s2, b, name, k).res == Ok(Some(ToStoreValue(value)))
  {
  }

  /**
   * Until the message is delivered, a peer that already held k locally
   * keeps answering with its old value: coherence needs the delivery.
   */
  lemma PeerStaleUntilDelivered<K, V>(sys: System<K, V>, a: nat, b: nat, name: string, k: K, value: Option<StoreVal<V>>)
    requires Hosts(sys, a, name) && Hosts(sys, b, name) && a != b
    requires k in sys.nodes[b].caches[name].local
    ensures var s1 := NodePut(sys, a, name, k, value).sys;
      Hosts(s1, b, name) && NodeLookup(s1, b, name, k).res == Ok(Some(sys.nodes[b].caches[name].local[k]))
  {
  }

  /**
   * A delivered message whose key comes back different from the one A
   * published invalidates the wrong entry: B keeps answering k with its old
   * value even after delivery.
   */
  lemma LossyDeliveryLeavesPeerStale<K, V>(sys: System<K, V>, a: nat, b: nat, name: string, k: K,
                                           value: Option<StoreVal<V>>, codec: Codec<K>, k': K)
    requires Hosts(sys, a, name) && Hosts(sys, b, name) && a != b && Wf(sys.nodes[a])
    requires k in sys.nodes[b].caches[name].local
    requires NodePut(sys, a, name, k, value).res.Ok?
    requires codec.decode(codec.encode(CacheMessage(name, Some(k)))) == Some(CacheMessage(name, Some(k'))) && k' != k
    ensures var s1 := NodePut(sys, a, name, k, value).sys;
      |sys.bus.log| < |s1.bus.log|
      && var s2 := Deliver(s1, b, |sys.bus.log|, codec);
      && Hosts(s2, b, name)
      && NodeLookup(s2, b, name, k).res == Ok(Some(sys.nodes[b].caches[name].local[k]))
  {
  }

  /**
   * As written, with `Long` keys: A's `put(n)` is published as the JSON
   * number n, which the receiving mapper reads back as an `Integer` (as it
   * does every number that fits in 32 bits). B's invalidation misses its
   * `Long` entry, and B keeps serving its old value.
   */
  lemma LongKeyLeavesPeerStale<V>(sys: System<JavaKey, V>, a: nat, b: nat, name: string, n: Int,
                                  value: Option<StoreVal<V>>, decode: string -> Option<CacheMessage<JavaKey>>)
    requires Hosts(sys, a, name) && Hosts(sys, b, name) && a != b && Wf(sys.nodes[a])
    requires JLong(n) in sys.nodes[b].caches[name].local
    requires NodePut(sys, a, name, JLong(n), value).res.Ok?
    requires decode(JsonEncode(CacheMessage(name, Some(JInteger(n))))) == Some(CacheMessage(name, Some(JInteger(n))))
    ensures var s1 := NodePut(sys, a, name, JLong(n), value).sys;
      |sys.bus.log| < |s1.bus.log|
      && var s2 := Deliver(s1, b, |sys.bus.log|, Codec(JsonEncode, decode));
      && Hosts(s2, b, name)
      && NodeLookup(s2, b, name, JLong(n)).res == Ok(Some(sys.nodes[b].caches[name].local[JLong(n)]))
  {
  }

  /** Once node A's `evict(k)` message reaches node B, B misses k in both tiers. */
  lemma EvictThenDeliverMisses<K, V>(sys: System<K, V>, a: nat, b: nat, name: string, k: K, codec: Codec<K>)
    requires Hosts(sys, a, name) && Hosts(sys, b, name) && name != "" && Wf(sys.nodes[a])
    requires CfgAt(sys, b, name) == CfgAt(sys, a, name)
    requires NodeEvict(sys, a, name, k).res.Ok?
    requires RoundTrips(codec, CacheMessage(name, Some(k)))
    ensures var s1 := NodeEvict(sys, a, name, k).sys;
      && s1.bus.log == sys.bus.log + [Published(CfgAt(sys, a, name).topic, CacheMessage(name, Some(k)))]
      && var s2 := Deliver(s1, b, |sys.bus.log|, codec);
      && Hosts(s2, b, name) && NodeLookup(s2, b, name, k).res == Ok(None)
  {
  }

  /** Once node A's `clear()` message reaches node B, B's local tier is empty and every key misses. */
  lemma ClearThenDeliverEmptiesPeer<K, V>(sys: System<K, V>, a: nat, b: nat, name: string, k: K, codec: Codec<K>)
    requires Hosts(sys, a, name) && Hosts(sys, b, name) && name != "" && Wf(sys.nodes[a])
    requires CfgAt(sys, b, name) == CfgAt(sys, a, name)
    requires NodeClear(sys, a, name).res.Ok?
    requires RoundTrips(codec, CacheMessage(name, None))
    ensures var s1 := NodeClear(sys, a, name).sys;
      && s1.bus.log == sys.bus.log + [Published(CfgAt(sys, a, name).topic, CacheMessage(name, None))]
      && var s2 := Deliver(s1, b, |sys.bus.log|, codec);
      && Hosts(s2, b, name) && s2.nodes[b].caches[name].local == map[]
      && NodeLookup(s2, b, name, k).res == Ok(None)
  {
    var cfg := CfgAt(sys, a, name);
    ClearEmptiesNamespace(cfg, View(sys, a, name), k);
  }
}

=== FILE: config.dfy ===
/**
 * The configuration record bound from `spring.cache.redis-caffeine.*`:
 * the top-level flags, the `Redis` sub-record (remote TTLs and the
 * invalidation topic) and the per-name `Caffeine` sub-records (local tier
 * sizing and expiry). Java `long` and `int` fields keep their widths as
 * subset types; the model never does arithmetic on them, so no wrap-around
 * arises.
 */
module Config {
  import opened Wrappers

  const MIN_LONG: int := -0x8000_0000_0000_0000
  const MAX_LONG: int := 0x7FFF_FFFF_FFFF_FFFF
  type Long = x: int | MIN_LONG <= x <= MAX_LONG

  const MIN_INT: int := -0x8000_0000
  const MAX_INT: int := 0x7FFF_FFFF
  type Int = x: int | MIN_INT <= x <= MAX_INT

  /** Remote-tier settings. Expiry values are in milliseconds. */
  datatype RedisProps = RedisProps(
    defaultExpires: Long,
    expires: map<string, Long>,   // per-cache-name override of defaultExpires
    topic: string)                // pub/sub channel of invalidation messages

  /** Local-tier settings of one cache name. A value <= 0 leaves the option unset. */
  datatype CaffeineProps = CaffeineProps(
    expireAfterAccess: Long,
    expireAfterWrite: Long,
    refreshAfterWrite: Long,
    initialCapacity: Int,
    maximumSize: Long)

  /**
   * The whole record. `cachePrefix`, `redis` and `caffeine` are Java
   * references with no initialiser, hence optional.
   */
  datatype Props = Props(
    enable: bool,
    cacheNames: set<string>,
    allowNull: bool,
    dynamic: bool,
    cachePrefix: Option<string>,
    redis: Option<RedisProps>,
    caffeine: Option<map<string, CaffeineProps>>)

  const DEFAULT_TOPIC: string := "cache:caffeine:change:topic"

  /** A freshly constructed `Redis` sub-record. */
  function DefaultRedis(): RedisProps {
    RedisProps(60000, map[], DEFAULT_TOPIC)
  }

  /** A freshly constructed `Caffeine` sub-record. */
  function DefaultCaffeine(): CaffeineProps {
    CaffeineProps(60000, 60000, -1, 1000, 1000000)
  }

  /** A freshly constructed top-level record, before any property is bound. */
  function DefaultProps(): Props {
    Props(false, {}, true, true, None, None, None)
  }

  /** The remote TTL of cache `name`: its override when one is configured, else the global default. */
  function ResolveTtl(r: RedisProps, name: string): Long {
    if name in r.expires then r.expires[name] else r.defaultExpires
  }

  /**
   * An override set for one name decides that name's TTL and leaves every
   * other name's TTL as it was.
   */
  lemma TtlOverrideIsPerName(r: RedisProps, n: string, t: Long, name: string)
    ensures ResolveTtl(r.(expires := r.expires[n := t]), name) == if name == n then t else ResolveTtl(r, name)
  {
  }
}

=== FILE: listener.dfy ===
/**
 * The per-node invalidation listener (`CaffineChangeMessageListener`):
 * decode the payload, then hand its cache name and key to the registry's
 * `clearLocal`. The decoder (the template's value serializer followed by
 * the JSON mapper) is a parameter; None stands for the exception it throws.
 */
module Listener {
  import opened Wrappers
  import opened Tiers
  import Cache
  import opened Registry

  /** The registry after one delivery, and whether the handler threw. */
  datatype Delivery<!K, V> = Delivery(reg: Registry<K, V>, res: Result<(), CacheError>)

  /** `onMessage`. */
  function OnMessage<K, V>(reg: Registry<K, V>, payload: string, decode: string -> Option<CacheMessage<K>>): (d: Delivery<K, V>)
    // an undecodable payload throws out of the handler and changes nothing
    ensures decode(payload).None? ==> d == Delivery(reg, Err(DecodeFailed))
    // only local tiers change, and only by losing entries
    ensures d.reg.props == reg.props && d.reg.toStr == reg.toStr && d.reg.caches.Keys == reg.caches.Keys
    ensures forall n | n in reg.caches ::
      && d.reg.caches[n].cfg == reg.caches[n].cfg
      && d.reg.caches[n].options == reg.caches[n].options
      && d.reg.caches[n].local.Keys <= reg.caches[n].local.Keys
    ensures decode(payload).Some? ==>
      var m := decode(payload).value;
      && d.res.Ok?
      // other caches are untouched; a cache this node never created is not created now
      && (forall n | n in reg.caches && n != m.cacheName :: d.reg.caches[n] == reg.caches[n])
      && (m.cacheName !in reg.caches || m.cacheName == "" ==> d.reg == reg)
      // a key-less message empties that cache's local tier; a keyed one drops that entry only
      && (m.cacheName in reg.caches && m.cacheName != "" ==>
            && (m.key.None? ==> d.reg.caches[m.cacheName].local == map[])
            && (m.key.Some? ==> d.reg.caches[m.cacheName].local == reg.caches[m.cacheName].local - {m.key.value}))
  {
    match decode(payload)
    case None => Delivery(reg, Err(DecodeFailed))
    case Some(m) => Delivery(ClearLocal(reg, m.cacheName, m.key), Ok(()))
  }
}

=== FILE: registry.dfy ===
/**
 * The per-node registry (`RedisCaffeineCacheManager`): get-or-create of
 * cache instances by name behind the dynamic/allowed-names gate, routing
 * of an invalidation to one instance's local tier, and the administrative
 * purge of remote keys by prefix.
 */
module Registry {
  import opened Wrappers
  import opened Config
  import opened Text
  import opened Tiers
  import opened Cache

  /** The Caffeine builder settings of one local tier; None: the builder call is skipped. */
  datatype LocalOptions = LocalOptions(
    expireAfterAccess: Option<Long>,
    expireAfterWrite: Option<Long>,
    initialCapacity: Option<Int>,
    maximumSize: Option<Long>,
    refreshAfterWrite: Option<Long>)

  /** `Caffeine.newBuilder()` then one guarded builder call per option. */
  function BuilderOptions(cfg: CaffeineProps): (o: LocalOptions)
    // an option is set exactly when its configured value is positive, and then to that value
    ensures (o.expireAfterAccess.Some? <==> cfg.expireAfterAccess > 0) && o.expireAfterAccess.GetOr(cfg.expireAfterAccess) == cfg.expireAfterAccess
    ensures (o.expireAfterWrite.Some? <==> cfg.expireAfterWrite > 0) && o.expireAfterWrite.GetOr(cfg.expireAfterWrite) == cfg.expireAfterWrite
    ensures (o.initialCapacity.Some? <==> cfg.initialCapacity > 0) && o.initialCapacity.GetOr(cfg.initialCapacity) == cfg.initialCapacity
    ensures (o.maximumSize.Some? <==> cfg.maximumSize > 0) && o.maximumSize.GetOr(cfg.maximumSize) == cfg.maximumSize
    ensures (o.refreshAfterWrite.Some? <==> cfg.refreshAfterWrite > 0) && o.refreshAfterWrite.GetOr(cfg.refreshAfterWrite) == cfg.refreshAfterWrite
  {
    var b0 := LocalOptions(None, None, None, None, None);
    var b1 := if cfg.expireAfterAccess > 0 then b0.(expireAfterAccess := Some(cfg.expireAfterAccess)) else b0;
    var b2 := if cfg.expireAfterWrite > 0 then b1.(expireAfterWrite := Some(cfg.expireAfterWrite)) else b1;
    var b3 := if cfg.initialCapacity > 0 then b2.(initialCapacity := Some(cfg.initialCapacity)) else b2;
    var b4 := if cfg.maximumSize > 0 then b3.(maximumSize := Some(cfg.maximumSize)) else b3;
    if cfg.refreshAfterWrite > 0 then b4.(refreshAfterWrite := Some(cfg.refreshAfterWrite)) else b4
  }

  /** `caffeineCache(name)`: the name's own settings, or a default `Caffeine` record when it has none. */
  function LocalOptionsFor(m: map<string, CaffeineProps>, name: string): LocalOptions {
    BuilderOptions(if name in m then m[name] else DefaultCaffeine())
  }

  /** A registered instance: its fixed configuration, its local-tier options and its local tier. */
  datatype Inst<!K, V> = Inst(cfg: CacheCfg<K>, options: LocalOptions, local: map<K, StoreVal<V>>)

  /** The registry of one node. */
  datatype Registry<!K, V> = Registry(props: Props, toStr: K -> string, caches: map<string, Inst<K, V>>)

  /** Every registered instance is the one `getCache` creates for its name. */
  ghost predicate Wf<K, V>(reg: Registry<K, V>) {
    forall n | n in reg.caches ::
      && reg.props.redis.Some? && reg.props.caffeine.Some?
      && reg.caches[n].cfg == NewCache(n, reg.props, reg.toStr)
      && reg.caches[n].options == LocalOptionsFor(reg.props.caffeine.value, n)
      && reg.caches[n].options.refreshAfterWrite.None?
  }

  /**
   * The new instance of `getCache`. `caffeineCache(name)` runs first: it
   * dereferences the `caffeine` map, and Caffeine's `build()` without a
   * loader refuses a refresh-after-write setting. Then the constructor
   * dereferences the `redis` record. A missing sub-record throws.
   */
  function Create<K, V>(reg: Registry<K, V>, name: string): (r: Result<Inst<K, V>, CacheError>)
    ensures r.Ok? <==>
      && reg.props.caffeine.Some? && reg.props.redis.Some?
      && (name in reg.props.caffeine.value ==> reg.props.caffeine.value[name].refreshAfterWrite <= 0)
    ensures r.Ok? ==> r.value.cfg.name == name && r.value.local == map[]
    ensures reg.props.caffeine.None? ==> r == Err(NullPointer)
    ensures r.Err? && reg.props.redis.Some? && reg.props.caffeine.Some? ==> r == Err(IllegalState)
  {
    if reg.props.caffeine.None? then Err(NullPointer)
    else
      var options := LocalOptionsFor(reg.props.caffeine.value, name);
      if options.refreshAfterWrite.Some? then Err(IllegalState)
      else if reg.props.redis.None? then Err(NullPointer)
      else Ok(Inst(NewCache(name, reg.props, reg.toStr), options, map[]))
  }

  /** `ConcurrentMap.putIfAbsent`: the first instance under a name stays, and is the one handed back. */
  function Register<K, V>(caches: map<string, Inst<K, V>>, name: string, inst: Inst<K, V>): (r: (map<string, Inst<K, V>>, Inst<K, V>))
    ensures name in r.0 && r.1 == r.0[name]
    ensures name in caches ==> r.0 == caches
    ensures name !in caches ==> r.0 == caches[name := inst]
  {
    if name in caches then (caches, caches[name]) else (caches[name := inst], inst)
  }

  /** The registry after `getCache`, and the instance it returned (None: a Java null). */
  datatype Acquired<!K, V> = Acquired(reg: Registry<K, V>, res: Result<Option<CacheCfg<K>>, CacheError>)

  /** `getCache` past its name guard. */
  function Admit<K, V>(reg: Registry<K, V>, name: string): Acquired<K, V> {
    if name in reg.caches then Acquired(reg, Ok(Some(reg.caches[name].cfg)))
    else if !reg.props.dynamic && name !in reg.props.cacheNames then Acquired(reg, Ok(None))
    else match Create(reg, name)
      case Err(e) => Acquired(reg, Err(e))
      case Ok(inst) =>
        var (caches', winner) := Register(reg.caches, name, inst);
        Acquired(reg.(caches := caches'), Ok(Some(winner.cfg)))
  }

  /** `getCache(name)` as written: its guard returns null for every non-empty name. */
  function GetCacheAsWritten<K, V>(reg: Registry<K, V>, name: string): Acquired<K, V> {
    if !IsEmpty(Some(name)) then Acquired(reg, Ok(None)) else Admit(reg, name)
  }

  /** `getCache(name)` with the guard the code evidently intends: only an empty name is refused. */
  function GetCache<K, V>(reg: Registry<K, V>, name: string): (a: Acquired<K, V>)
    // nothing but the registered instances changes, and those already there stay
    ensures a.reg.props == reg.props && a.reg.toStr == reg.toStr
    ensures reg.caches.Keys <= a.reg.caches.Keys <= reg.caches.Keys + {name}
    ensures forall n | n in reg.caches :: a.reg.caches[n] == reg.caches[n]
    ensures Wf(reg) ==> Wf(a.reg)
    // the empty name is refused
    ensures name == "" ==> a == Acquired(reg, Ok(None))
    // a registered name gets its existing instance back
    ensures name != "" && name in reg.caches ==> a == Acquired(reg, Ok(Some(reg.caches[name].cfg)))
    // an unregistered name outside the configured set is refused unless creation is dynamic
    ensures name != "" && name !in reg.caches && !reg.props.dynamic && name !in reg.props.cacheNames ==>
      a == Acquired(reg, Ok(None))
    // otherwise a fresh instance with an empty local tier is created, or creation throws:
    // a missing sub-record, or a refresh-after-write setting that `build()` refuses
    ensures name != "" && name !in reg.caches && (reg.props.dynamic || name in reg.props.cacheNames) ==>
      if reg.props.caffeine.None? then a == Acquired(reg, Err(NullPointer))
      else if LocalOptionsFor(reg.props.caffeine.value, name).refreshAfterWrite.Some? then a == Acquired(reg, Err(IllegalState))
      else if reg.props.redis.None? then a == Acquired(reg, Err(NullPointer))
      else
        && a.res == Ok(Some(NewCache(name, reg.props, reg.toStr)))
        && a.reg.caches == reg.caches[name := Inst(NewCache(name, reg.props, reg.toStr),
                                                   LocalOptionsFor(reg.props.caffeine.value, name), map[])]
    // whatever instance is returned is the one registered under that name
    ensures a.res.Ok? && a.res.value.Some? ==> name in a.reg.caches && a.reg.caches[name].cfg == a.res.value.value
  {
    if IsEmpty(Some(name)) then Acquired(reg, Ok(None)) else Admit(reg, name)
  }

  /** `clearLocal(cacheName, key)`: route an invalidation to one instance's local tier. */
  function ClearLocal<K, V>(reg: Registry<K, V>, name: string, key: Option<K>): (r: Registry<K, V>)
    ensures r.props == reg.props && r.toStr == reg.toStr && r.caches.Keys == reg.caches.Keys
    ensures name == "" || name !in reg.caches ==> r == reg
    ensures forall n | n in reg.caches && n != name :: r.caches[n] == reg.caches[n]
    ensures name != "" && name in reg.caches ==>
      r.caches[name] == reg.caches[name].(local := Cache.ClearLocal(reg.caches[name].local, key))
  {
    if IsEmpty(Some(name)) || name !in reg.caches then reg
    else
      var inst := reg.caches[name];
      reg.(caches := reg.caches[name := inst.(local := Cache.ClearLocal(inst.local, key))])
  }

  /**
   * `clearCaffeine(cacheName)`: empty one instance's whole local tier. The
   * source calls `clearAllLocal()`, which the instance class does not
   * declare; the model uses the no-argument `clearLocal()` it does declare.
   */
  function ClearCaffeine<K, V>(reg: Registry<K, V>, name: string): (r: Registry<K, V>)
    ensures r.props == reg.props && r.toStr == reg.toStr && r.caches.Keys == reg.caches.Keys
    ensures name !in reg.caches ==> r == reg
    ensures forall n | n in reg.caches && n != name :: r.caches[n] == reg.caches[n]
    ensures name in reg.caches ==> r.caches[name] == reg.caches[name].(local := map[])
  {
    if name !in reg.caches then reg
    else
      var inst := reg.caches[name];
      reg.(caches := reg.caches[name := inst.(local := Cache.ClearLocal(inst.local, None))])
  }

  /** How the store is deployed: only a cluster hands out a cluster connection. */
  datatype Deployment = Clustered | Standalone

  /** The pattern the manager's `clearRedis` purges: a `*` is always appended. */
  function PurgePattern(name: string, prefix: string): string {
    name + ":" + prefix + "*"
  }

  /**
   * `clearRedis(cacheName, prefix)`: first through a cluster connection; if
   * that throws (no cluster, or the purge failed) the exception is logged
   * and the purge is retried through the plain template.
   */
  function ClearRedis<V>(store: Store<V>, name: string, prefix: string, mode: Deployment): (r: Purged<V>)
    ensures !HasText(prefix) ==> r == Purged(store, Err(IllegalArgument))
    ensures HasText(prefix) && !store.up ==> r == Purged(store, Err(StoreUnavailable))
    ensures HasText(prefix) && store.up ==>
      r.res.Ok? && r.store.up &&
      forall rk :: rk in r.store.data <==> rk in store.data && !Glob(PurgePattern(name, prefix), rk)
  {
    if !HasText(prefix) then Purged(store, Err(IllegalArgument))
    else
      var pattern := PurgePattern(name, prefix);
      var viaCluster := if mode.Clustered? then Some(Purge(store, pattern)) else None;
      if viaCluster.Some? && viaCluster.value.res.Ok? then viaCluster.value
      else Purge(store, pattern)
  }

  // ---------------------------------------------------------------------
  // Properties of the registry
  // ---------------------------------------------------------------------

  /** With no per-name settings, every option but refresh-after-write is applied, at its default. */
  lemma DefaultLocalOptions(m: map<string, CaffeineProps>, name: string)
    requires name !in m
    ensures LocalOptionsFor(m, name) == LocalOptions(Some(60000), Some(60000), Some(1000), Some(1000000), None)
  {
  }

  /**
   * A record left at its defaults admits every name (dynamic creation), but
   * its `redis` and `caffeine` sub-records are null, so creation throws; once
   * both are set to their own defaults, an instance gets the 60 s remote TTL,
   * allows nulls, publishes on the default topic and has no key prefix.
   */
  lemma DefaultPropsCreate<K, V>(toStr: K -> string, name: string)
    requires name != ""
    ensures GetCache<K, V>(Registry(DefaultProps(), toStr, map[]), name).res == Err(NullPointer)
    ensures var props := DefaultProps().(redis := Some(DefaultRedis()), caffeine := Some(map[]));
      var a := GetCache<K, V>(Registry(props, toStr, map[]), name);
      && a.res == Ok(Some(CacheCfg(name, None, 60000, true, DEFAULT_TOPIC, toStr)))
      && a.reg.caches[name].options == LocalOptions(Some(60000), Some(60000), Some(1000), Some(1000000), None)
  {
  }

  /** As written, `getCache` hands out no instance for any real name and never registers one. */
  lemma GetCacheAsWrittenRefusesEveryName<K, V>(reg: Registry<K, V>, name: string)
    requires name != ""
    ensures GetCacheAsWritten(reg, name) == Acquired(reg, Ok(None))
  {
  }

  /** As written, the only name that can ever be registered is the empty one. */
  lemma GetCacheAsWrittenOnlyRegistersEmptyName<K, V>(reg: Registry<K, V>, name: string)
    ensures GetCacheAsWritten(reg, name).reg.caches.Keys <= reg.caches.Keys + {""}
  {
  }

  /**
   * A name whose local-tier settings ask for refresh-after-write is never
   * registered and no instance is handed out for it: `build()` throws first.
   */
  lemma RefreshAfterWriteBlocksCreation<K, V>(reg: Registry<K, V>, name: string)
    requires name !in reg.caches
    requires reg.props.caffeine.Some? && name in reg.props.caffeine.value
    requires reg.props.caffeine.value[name].refreshAfterWrite > 0
    ensures GetCache(reg, name).reg == reg
    ensures GetCache(reg, name).res.Ok? ==> GetCache(reg, name).res.value.None?
  {
  }

  /** Asking twice for the same name gives the same instance, and the second call changes nothing. */
  lemma GetCacheIsStable<K, V>(reg: Registry<K, V>, name: string)
    requires GetCache(reg, name).res.Ok?
    ensures var a1 := GetCache(reg, name);
      GetCache(a1.reg, name) == Acquired(a1.reg, a1.res)
  {
  }

  /** In the model, the manager's purge does not depend on whether the store is a cluster. */
  lemma ClearRedisIgnoresDeployment<V>(store: Store<V>, name: string, prefix: string)
    ensures ClearRedis(store, name, prefix, Clustered) == ClearRedis(store, name, prefix, Standalone)
  {
  }

  /**
   * The manager appends `*` unconditionally, the instance only when the
   * prefix lacks one; both purge the same keys.
   */
  lemma ManagerAndInstancePurgeAlike<K, V>(c: CacheCfg<K>, store: Store<V>, prefix: string, mode: Deployment)
    ensures ClearRedis(store, c.name, prefix, mode) == Cache.ClearRedis(c, store, prefix)
  {
    if HasText(prefix) && store.up {
      var mp := PurgePattern(c.name, prefix);
      var cp := PrefixPattern(c.name, prefix);
      if |prefix| > 0 && prefix[|prefix| - 1] == '*' {
        var q := c.name + ":" + prefix[..|prefix| - 1];
        assert mp == q + "**" && cp == q + "*";
        forall rk ensures Glob(mp, rk) == Glob(cp, rk) {
          DoubleStarIsStar(q, rk);
        }
      } else {
        assert mp == cp;
      }
      assert MatchingKeys(store.data, mp) == MatchingKeys(store.data, cp);
    }
  }
}

=== FILE: text.dfy ===
/**
 * String predicates the protocol relies on: Spring's `StringUtils.isEmpty`
 * and `Assert.hasText`, and the glob patterns that Redis `KEYS` matches,
 * where `*` is the only wildcard modelled.
 */
module Text {
  import opened Wrappers

  /** `StringUtils.isEmpty(s)`: null or the empty string. */
  predicate IsEmpty(s: Option<string>) {
    s.None? || s.value == ""
  }

  /** `Character.isWhitespace(c)`. */
  predicate IsWhitespace(c: char) {
    || c == ' ' || c == '\t' || c == '\n' || c == '\r'
    || c == '\U{000B}' || c == '\U{000C}'
    || ('\U{001C}' <= c <= '\U{001F}')
    || c == '\U{1680}'
    || ('\U{2000}' <= c <= '\U{200A}' && c != '\U{2007}')
    || c == '\U{2028}' || c == '\U{2029}' || c == '\U{205F}' || c == '\U{3000}'
  }

  /** `StringUtils.hasText(s)` for a non-null `s`: some character is not whitespace. */
  predicate HasText(s: string) {
    exists i :: 0 <= i < |s| && !IsWhitespace(s[i])
  }

  predicate StartsWith(s: string, prefix: string) {
    |prefix| <= |s| && s[..|prefix|] == prefix
  }

  predicate StarFree(p: string) {
    forall i :: 0 <= i < |p| ==> p[i] != '*'
  }

  /** Glob match of `s` against `p`, where `*` matches any run of characters and every other character, `?`, `[` and `\` included, only itself. */
  predicate Glob(p: string, s: string)
    decreases |p| + |s|
  {
    if p == [] then s == []
    else if p[0] == '*' then Glob(p[1..], s) || (s != [] && Glob(p, s[1..]))
    else s != [] && s[0] == p[0] && Glob(p[1..], s[1..])
  }

  /** A lone `*` matches everything. */
  lemma {:induction false} StarMatchesAll(s: string)
    ensures Glob("*", s)
    decreases |s|
  {
    if s != [] {
      StarMatchesAll(s[1..]);
    }
  }

  /** For a pattern with no other wildcard, a trailing `*` is a prefix test. */
  lemma {:induction false} TrailingStarIsPrefix(p: string, s: string)
    requires StarFree(p)
    ensures Glob(p + "*", s) <==> StartsWith(s, p)
    decreases |p|
  {
    if p == [] {
      StarMatchesAll(s);
      assert p + "*" == "*";
    } else {
      var q := p + "*";
      assert q[0] == p[0] && q[1..] == p[1..] + "*";
      if s != [] {
        TrailingStarIsPrefix(p[1..], s[1..]);
        if StartsWith(s, p) {
          assert s[1..][..|p[1..]|] == s[..|p|][1..];
        }
        if StartsWith(s[1..], p[1..]) && s[0] == p[0] {
          assert s[..|p|] == [s[0]] + s[1..][..|p[1..]|];
        }
      }
    }
  }

  /** Whatever `p` contains, `p + "*"` matches every string that starts with `p` itself. */
  lemma {:induction false} PatternMatchesOwnExtensions(p: string, t: string)
    ensures Glob(p + "*", p + t)
    decreases |p|
  {
    if p == [] {
      assert p + "*" == "*" && p + t == t;
      StarMatchesAll(t);
    } else {
      var q := p + "*";
      var s := p + t;
      assert q[0] == p[0] && q[1..] == p[1..] + "*";
      assert s[0] == p[0] && s[1..] == p[1..] + t;
      PatternMatchesOwnExtensions(p[1..], t);
      if p[0] == '*' {
        // the leading `*` of the pattern swallows the literal `*` of s
        assert Glob(q[1..], s[1..]);
        assert Glob(q, s[1..]);
      }
    }
  }

  /** A doubled trailing `*` matches exactly what a single one does. */
  lemma {:induction false} DoubleStarIsStar(p: string, s: string)
    ensures Glob(p + "**", s) == Glob(p + "*", s)
    decreases |p| + |s|
  {
    var q2 := p + "**";
    var q1 := p + "*";
    if p == [] {
      assert q1 == "*" && q2 == "**" && q2[1..] == "*";
      StarMatchesAll(s);
    } else {
      assert q2[0] == p[0] && q2[1..] == p[1..] + "**";
      assert q1[0] == p[0] && q1[1..] == p[1..] + "*";
      DoubleStarIsStar(p[1..], s);
      if s != [] {
        DoubleStarIsStar(p[1..], s[1..]);
        DoubleStarIsStar(p, s[1..]);
      }
    }
  }
}

=== FILE: tiers.dfy ===
/**
 * The three things one cache operation touches: the node's local tier (a
 * Caffeine map), the shared remote tier (Redis string keys carrying a TTL
 * tag) and the shared invalidation bus (the log of everything published on
 * it). An operation is a sequence of effects executed in program order; an
 * unreachable store or bus makes the next call to it throw, and the
 * exception abandons the effects after it.
 */
module Tiers {
  import opened Wrappers
  import opened Text

  /** A stored value. Spring wraps a cached `null` into a non-null sentinel. */
  datatype StoreVal<V> = NullSentinel | Val(v: V)

  /** A remote entry: its value and its expiry in ms (None: the key never expires). */
  datatype Entry<V> = Entry(value: StoreVal<V>, ttl: Option<int>)

  /** The invalidation message: no key means "drop the whole local tier of that cache". */
  datatype CacheMessage<K> = CacheMessage(cacheName: string, key: Option<K>)

  /** One message published on one topic. */
  datatype Published<K> = Published(topic: string, msg: CacheMessage<K>)

  /** The remote tier. `up` false: every command throws. */
  datatype Store<V> = Store(data: map<string, Entry<V>>, up: bool)

  /** The invalidation bus. `up` false: every publish throws. */
  datatype Bus<K> = Bus(log: seq<Published<K>>, up: bool)

  /** What one cache instance sees: its own local tier plus the shared tiers. */
  datatype World<K, V> = World(local: map<K, StoreVal<V>>, store: Store<V>, bus: Bus<K>)

  /** Exceptions that escape the modelled calls. */
  datatype CacheError =
    | StoreUnavailable   // a Redis command threw
    | BusUnavailable     // the publish threw
    | NullNotAllowed     // toStoreValue(null) with null values disallowed
    | IllegalArgument    // Assert.hasText failed
    | NullPointer        // a missing configuration sub-record was dereferenced
    | IllegalState       // Caffeine's build() refused the configured options
    | ValueRetrieval     // get(key, loader) wrapped a failure
    | DecodeFailed       // an invalidation payload could not be decoded

  /** One step of an operation, in the order the source performs it. */
  datatype Effect<K, V> =
    | RemoteGet(rkey: string)
    | RemoteKeys(pattern: string)
    | RemoteSet(rkey: string, entry: Entry<V>)
    | RemoteDelete(rkeys: set<string>)
    | Load                              // the caller's loader runs; it touches neither tier
    | Publish(item: Published<K>)
    | LocalPut(key: K, value: StoreVal<V>)
    | LocalInvalidate(key: K)
    | LocalInvalidateAll

  predicate IsRemote<K, V>(e: Effect<K, V>) {
    e.RemoteGet? || e.RemoteKeys? || e.RemoteSet? || e.RemoteDelete?
  }

  predicate IsLocal<K, V>(e: Effect<K, V>) {
    e.LocalPut? || e.LocalInvalidate? || e.LocalInvalidateAll?
  }

  /** 0: remote calls (and the loader), 1: publish, 2: local-tier changes. */
  function Rank<K, V>(e: Effect<K, V>): nat {
    if e.Publish? then 1 else if IsLocal(e) then 2 else 0
  }

  /** Remote work first, then the publish, then the local tier. */
  predicate Ordered<K, V>(t: seq<Effect<K, V>>) {
    forall i, j :: 0 <= i < j < |t| ==> Rank(t[i]) <= Rank(t[j])
  }

  /** A prefix of an ordered trace is ordered. */
  lemma OrderedPrefix<K, V>(t: seq<Effect<K, V>>, n: nat)
    requires Ordered(t) && n <= |t|
    ensures Ordered(t[..n])
  {
    assert forall i :: 0 <= i < n ==> t[..n][i] == t[i];
  }

  /** Remote reads (and the loader) in front of an ordered trace keep it ordered. */
  lemma OrderedAfterReads<K, V>(pre: seq<Effect<K, V>>, t: seq<Effect<K, V>>)
    requires forall i :: 0 <= i < |pre| ==> Rank(pre[i]) == 0
    requires Ordered(t)
    ensures Ordered(pre + t)
  {
  }

  /** The published messages a trace contains, in order. */
  function Publications<K, V>(t: seq<Effect<K, V>>): seq<Published<K>>
    decreases |t|
  {
    if t == [] then []
    else (if t[0].Publish? then [t[0].item] else []) + Publications(t[1..])
  }

  /** Caffeine's `invalidate(k)`. */
  function Invalidate<K, V>(local: map<K, StoreVal<V>>, k: K): map<K, StoreVal<V>> {
    local - {k}
  }

  /** Caffeine's `invalidateAll()`. */
  function InvalidateAll<K, V>(local: map<K, StoreVal<V>>): map<K, StoreVal<V>> {
    map[]
  }

  /** The remote keys a `KEYS pattern` command returns. */
  function MatchingKeys<V>(data: map<string, Entry<V>>, pattern: string): set<string> {
    set rk | rk in data && Glob(pattern, rk)
  }

  /** The exception an effect throws in world `w`, if any. */
  function Fault<K, V>(w: World<K, V>, e: Effect<K, V>): Option<CacheError> {
    if IsRemote(e) && !w.store.up then Some(StoreUnavailable)
    else if e.Publish? && !w.bus.up then Some(BusUnavailable)
    else None
  }

  /** The state change of an effect that does not throw. */
  function Apply<K, V>(w: World<K, V>, e: Effect<K, V>): World<K, V> {
    match e
    case RemoteSet(rk, en) => w.(store := w.store.(data := w.store.data[rk := en]))
    case RemoteDelete(rks) => w.(store := w.store.(data := w.store.data - rks))
    case Publish(p) => w.(bus := w.bus.(log := w.bus.log + [p]))
    case LocalPut(k, v) => w.(local := w.local[k := v])
    case LocalInvalidate(k) => w.(local := Invalidate(w.local, k))
    case LocalInvalidateAll => w.(local := InvalidateAll(w.local))
    case _ => w
  }

  /** The world after every effect of `t` has happened. */
  function Replay<K, V>(w: World<K, V>, t: seq<Effect<K, V>>): World<K, V>
    decreases |t|
  {
    if t == [] then w else Replay(Apply(w, t[0]), t[1..])
  }

  /** An operation's outcome: the world after it, what happened in order, and its result. */
  datatype Out<K, V, R> = Out(w: World<K, V>, trace: seq<Effect<K, V>>, res: Result<R, CacheError>)

  /** Execute `plan` statement by statement; the first throwing statement ends the run. */
  function Run<K, V>(w: World<K, V>, plan: seq<Effect<K, V>>): Out<K, V, ()>
    decreases |plan|
  {
    if plan == [] then Out(w, [], Ok(()))
    else match Fault(w, plan[0])
      case Some(err) => Out(w, [], Err(err))
      case None =>
        var o := Run(Apply(w, plan[0]), plan[1..]);
        Out(o.w, [plan[0]] + o.trace, o.res)
  }

  /**
   * The run executes exactly a prefix of the plan, and the world it leaves
   * is that prefix replayed. It succeeds iff the whole plan ran; otherwise
   * the first statement it did not run is the one that threw.
   */
  lemma {:induction false} RunExecutesPrefix<K, V>(w: World<K, V>, plan: seq<Effect<K, V>>)
    ensures var o := Run(w, plan);
      && |o.trace| <= |plan|
      && o.trace == plan[..|o.trace|]
      && o.w == Replay(w, o.trace)
      && (o.res.Ok? <==> |o.trace| == |plan|)
      && (o.res.Err? ==> Fault(o.w, plan[|o.trace|]) == Some(o.res.error))
      && o.w.store.up == w.store.up && o.w.bus.up == w.bus.up
    decreases |plan|
  {
    if plan != [] && Fault(w, plan[0]).None? {
      var w1 := Apply(w, plan[0]);
      RunExecutesPrefix(w1, plan[1..]);
      var o1 := Run(w1, plan[1..]);
      assert plan[..|o1.trace| + 1] == [plan[0]] + plan[1..][..|o1.trace|];
    }
  }

  /** The result of a `KEYS` + `DEL` purge. */
  datatype Purged<V> = Purged(store: Store<V>, res: Result<(), CacheError>)

  /** Look up the keys matching `pattern`, then delete them. Touches the remote tier only. */
  function Purge<V>(store: Store<V>, pattern: string): Purged<V> {
    if !store.up then Purged(store, Err(StoreUnavailable))
    else Purged(store.(data := store.data - MatchingKeys(store.data, pattern)), Ok(()))
  }

  /** Effects ranked 0 change neither the local tier nor the bus. */
  lemma {:induction false} RemoteOnlyReplay<K, V>(w: World<K, V>, t: seq<Effect<K, V>>)
    requires forall i :: 0 <= i < |t| ==> Rank(t[i]) == 0
    ensures Replay(w, t).local == w.local && Replay(w, t).bus == w.bus
    ensures Publications(t) == []
    decreases |t|
  {
    if t != [] {
      RemoteOnlyReplay(Apply(w, t[0]), t[1..]);
    }
  }

  /** Effects ranked 0 or 1 leave the local tier alone. */
  lemma {:induction false} NonLocalReplay<K, V>(w: World<K, V>, t: seq<Effect<K, V>>)
    requires forall i :: 0 <= i < |t| ==> Rank(t[i]) <= 1
    ensures Replay(w, t).local == w.local
    decreases |t|
  {
    if t != [] {
      NonLocalReplay(Apply(w, t[0]), t[1..]);
    }
  }

  /**
   * The safety argument of the write order: in a plan that does remote work,
   * then publishes, then touches the local tier, a throwing remote call
   * publishes nothing and leaves the local tier as it was, and a throwing
   * publish still leaves the local tier as it was.
   */
  lemma FailureNeverReachesLocal<K, V>(w: World<K, V>, plan: seq<Effect<K, V>>)
    requires Ordered(plan)
    ensures var o := Run(w, plan);
      && (o.res.Err? ==> o.w.local == w.local)
      && (o.res == Err(StoreUnavailable) ==> o.w.bus == w.bus && Publications(o.trace) == [])
  {
    RunExecutesPrefix(w, plan);
    var o := Run(w, plan);
    var n := |o.trace|;
    if o.res.Err? {
      forall i | 0 <= i < n ensures Rank(o.trace[i]) <= Rank(plan[n]) {
        assert o.trace[i] == plan[i];
      }
      assert Rank(plan[n]) <= 1;
      NonLocalReplay(w, o.trace);
      if o.res.error == StoreUnavailable {
        assert Rank(plan[n]) == 0;
        RemoteOnlyReplay(w, o.trace);
      }
    }
  }
}

=== FILE: wire.dfy ===
/**
 * The JSON text an invalidation message travels as. `JsonUtil`'s mapper
 * writes properties in alphabetical order, leaves out null ones and adds no
 * type information, so only the JSON value of the key travels: a Java
 * `Integer` and a `Long` with the same value become the same text. Keys are
 * drawn from the common key types `String`, `Integer` and `Long`.
 */
module Wire {
  import opened Wrappers
  import opened Config
  import opened Tiers

  /** A cache key as a Java object; `Integer` and `Long` keep their 32- and 64-bit ranges. */
  datatype JavaKey = JString(s: string) | JInteger(i: Int) | JLong(l: Long)

  function DigitText(d: nat): string
    requires d < 10
  {
    ["0123456789"[d]]
  }

  /** The decimal digits of `n`. */
  function NaturalText(n: nat): string
    decreases n
  {
    if n < 10 then DigitText(n) else NaturalText(n / 10) + DigitText(n % 10)
  }

  /** A JSON number. */
  function NumberText(i: int): string {
    if i < 0 then "-" + NaturalText(-i) else NaturalText(i)
  }

  /** The JSON value of a key: a string is quoted, a number is written in decimal whatever its Java type. */
  function KeyJson(k: JavaKey): string {
    match k
    case JString(s) => "\"" + s + "\""
    case JInteger(i) => NumberText(i)
    case JLong(l) => NumberText(l)
  }

  /** `JsonUtil.toJson(new CacheMessage(name, key))`; a null key is left out. */
  function JsonEncode(m: CacheMessage<JavaKey>): string {
    "{\"cacheName\":\"" + m.cacheName + "\""
      + (if m.key.Some? then ",\"key\":" + KeyJson(m.key.value) else "")
      + "}"
  }

  /**
   * The `Long` key n and the `Integer` key n are written identically, so no
   * decoder reads both back as they were sent.
   */
  lemma JsonEncodeErasesKeyType(name: string, n: Int, decode: string -> Option<CacheMessage<JavaKey>>)
    ensures JsonEncode(CacheMessage(name, Some(JLong(n)))) == JsonEncode(CacheMessage(name, Some(JInteger(n))))
    ensures !(&& decode(JsonEncode(CacheMessage(name, Some(JLong(n))))) == Some(CacheMessage(name, Some(JLong(n))))
              && decode(JsonEncode(CacheMessage(name, Some(JInteger(n))))) == Some(CacheMessage(name, Some(JInteger(n)))))
  {
  }
}

=== FILE: wrappers.dfy ===
/** Option and Result: Java's nullable references and thrown exceptions, made explicit. */
module Wrappers {

  /** `None` stands for a Java `null`. */
  datatype Option<+T> = None | Some(value: T) {

    /** The value, or `default` when this is None. */
    function GetOr(default: T): T {
      match this
      case Some(v) => v
      case None => default
    }
  }

  /** `Err` stands for an exception thrown out of the modelled call. */
  datatype Result<+T, +E> = Ok(value: T) | Err(error: E)
}
